=== FILE: README.md ===
# Grocery pickup app — a Dafny model of its screen logic

The app is a React Native grocery store with in-store pickup. Customers
browse products, keep a cart on the device, pick a store and a pickup
window, save cards and edit their profile. Employees see the day's orders
and move them through "In Progress", "Ready for Pickup" and "Completed".
The logic sits inside the screens. This project lifts each rule out as a
pure Dafny function over immutable datatypes and proves what it does.

The modelled rules:

- **Client cart** (`Cart`): the cart blob kept in device storage, as a
  sequence of lines. This covers the product details screen's
  add-or-increment with a chosen quantity, the quantity selector and its
  floor of one, the button total, and the product card's
  add-or-increment by one.
- **Order details** (`OrderDetails`): the order-to-view transform
  (subtotal, card last four, barcode), the barcode's bar layout, and
  "Reorder", which appends and never merges.
- **Active order** (`ActiveOrder`): the server-side add to cart from
  `hooks/CartUtils.tsx`. It finds or creates the user's active order,
  inserts one item row and raises the order total. It works over an
  in-memory store, with one failure flag per remote step.
- **Employee view** (`EmployeeView`): grouping item rows under orders, and
  the unguarded status overwrite.
- **Payment settings** (`PaymentSettings`): the card-brand classifier,
  the digit filter, the last four digits, saving, and deleting.
- **Edit profile** (`EditProfile`): the phone formatter, and the change
  set sent on submit.
- **Pickup time** (`PickUpTime`): the seven day options, the slot table,
  the 12-hour to 24-hour conversion, the "+30 minutes" end label, the
  confirmation, and its two storage writes.
- **Select location** (`SelectLocation`): the search filter, confirming
  a store, and "use current location".
- **Notification settings** (`NotificationSettings`): loading the three
  switches, and the optimistic toggle with its revert.
- **Sign-up and login** (`SignUp`, `Login`): field validation, the
  remote steps' decision logic, and the role-based route.

Shared helpers:

- `Options` holds the optional-value type.
- `Seqs` holds the subsequence relation.
- `Text` stands in for the JavaScript string built-ins the screens call:
  `replace(/\D/g, "")`, `trim()`, `toLowerCase()`, `includes`,
  `Number`, `padStart` and `length`.

Conventions:

- **Remote results are inputs.** Every remote result (a Supabase query,
  an auth call, a device-storage read or write) is a parameter. It is
  either an optional value or a failure flag.
- **Money is integer cents.**
- **Missing values follow JavaScript truthiness.** Where the source
  writes `x || fallback` or `if (!x)`, an absent value and the empty
  string are both treated as missing.

The employee screen has no status transition table and no
compare-and-swap update: a status change is an unguarded overwrite (see
`EmployeeView.NoTransitionGuard`). The order details screen reads the
service fee and the tax back as stored columns. The cart screen, which
computes them and submits the order, is not part of this model (see
"Left out").

## Model

| member | source | states |
|---|---|---|
| Cart.FindIndex | app/ProductDetails.tsx:64-66 | Finds a position exactly when some line has the id, and the position found is the first line with that id. |
| Cart.ChangeQuantity | app/ProductDetails.tsx:49-55 | Increase gives q + 1. Decrease gives q - 1 above one and leaves q unchanged at one or below, so the quantity never drops below one from one or more. |
| Cart.QuantityStaysPositive | app/ProductDetails.tsx:49-55 | From any start of one or more, every sequence of presses keeps the selector at one or more, and at most the start plus the number of increases. |
| Cart.SelectedQuantityPositive | app/ProductDetails.tsx:24 | Starting at the initial value 1, the selected quantity is at least one whatever the user presses. |
| Cart.ButtonTotal | app/ProductDetails.tsx:104 | The amount is price × quantity, characterised by repeated addition: one unit costs the unit price, and each further unit adds the unit price once. |
| Cart.AddOrIncrement | app/ProductDetails.tsx:64-74 | If a line has the id, the first such line's quantity grows by the selected quantity and the length is kept. Otherwise one new line is appended at the end. Every other line is unchanged. |
| Cart.AddQuantityOf | app/ProductDetails.tsx:64-74 | The total quantity under the product's id grows by exactly the selected quantity, and the quantity under every other id is unchanged. |
| Cart.AddValue | app/ProductDetails.tsx:64-104 | When the product's lines carry its current price, the cart's value grows by exactly the button total. |
| Cart.AddKeepsIdsUnique | app/ProductDetails.tsx:64-74 | If the line ids were unique before the add, they are unique after it, and the product's id is present. |
| Cart.DetailsAddToCart | app/ProductDetails.tsx:57-85 | With no product, or a failed write, the stored blob is unchanged. Otherwise the blob becomes the add-or-increment of the loaded cart (empty when missing), so the product's quantity grows by exactly the selected amount. |
| Cart.AddOne | components/ProductCard.tsx:55-61 | The cart grows by at most one line, and every line other than the first with the id is unchanged. |
| Cart.AddOneIsAddOfOne | components/ProductCard.tsx:55-61 | The card's add equals the details screen's add with quantity one. An existing id's quantity grows by exactly one; a new id appends one line with quantity one. |
| Cart.CardAddToCart | components/ProductCard.tsx:50-72 | The callback runs whether or not storage failed. On failure the blob is unchanged. Otherwise a missing blob counts as empty and the blob becomes the add-one result. |
| OrderDetails.OrElse | app/OrderDetails.tsx:101-102 | `x || fallback` on text: a present, non-empty value is kept, and an absent or empty one gives the fallback. |
| OrderDetails.ToView | app/OrderDetails.tsx:83-103 | subtotal + service fee + tax equals the total exactly. Items map one to one with their row ids. A present, non-empty stored last four is shown; otherwise "N/A". The barcode becomes absent exactly when it was absent or empty. |
| OrderDetails.Fetch | app/OrderDetails.tsx:77-105 | A failed fetch leaves the view as it was; a successful one shows the view of the fetched record. |
| OrderDetails.BarcodeOf | app/OrderDetails.tsx:188-205 | An absent barcode shows "No barcode available". A present one is drawn with its text as caption and one bar per UTF-16 code unit, as `split("")` cuts it: between one and two bars per character. |
| OrderDetails.Bars | app/OrderDetails.tsx:191-197 | One bar per character of the barcode. |
| OrderDetails.BarsAlternate | app/OrderDetails.tsx:191-197 | Bar i is wide exactly when i is even, so neighbouring bars differ and ⌈n/2⌉ bars are wide. |
| OrderDetails.ReorderLines | app/OrderDetails.tsx:127-132 | One cart line per order item, in order, with the item row's id, name, quantity and price. |
| OrderDetails.Reorder | app/OrderDetails.tsx:116-144 | With no loaded order, or a failed storage step, the blob is unchanged. Otherwise the old cart is an untouched prefix, and the order's lines follow in order. |
| OrderDetails.ReorderLinesWithId | app/OrderDetails.tsx:125-133 | The lines added under an id number exactly the order items with that id. |
| OrderDetails.ReorderAddsLines | app/OrderDetails.tsx:125-133 | Reorder never merges: under every id, the number of cart lines grows by exactly the number of order items with that id. |
| OrderDetails.ReorderTwiceDuplicates | app/OrderDetails.tsx:125-133 | Reordering the same non-empty order twice leaves a cart whose ids are not unique. |
| ActiveOrder.ActiveOrders | hooks/CartUtils.tsx:7-11 | Every listed order belongs to the user and has status 'active', and no more orders are listed than the table holds. |
| ActiveOrder.ActiveOrdersMembers | hooks/CartUtils.tsx:7-11 | An order row is listed exactly when it belongs to the user and its status is 'active'. |
| ActiveOrder.Lookup | hooks/CartUtils.tsx:7-16 | A found order is one of the user's active orders. Nothing is found when the lookup fails or when other than exactly one row matches. |
| ActiveOrder.SetTotal | hooks/CartUtils.tsx:65-68 | Every row with the order id gets the new total, and nothing else changes. |
| ActiveOrder.AddToActiveOrder | hooks/CartUtils.tsx:4-83 | The result is true exactly when an order was found or created and both the insert and the update succeeded. A found order is reused; otherwise one active order with the location is created with total 0. A creation failure changes nothing, and on any failure the existing orders are untouched. On success the order used gets its old total (or 0) plus price × quantity, and every other order is unchanged. At most one item row is appended, with the order id, product id, quantity, price and location, and existing rows are untouched. |
| ActiveOrder.AddKeepsWellFormed | hooks/CartUtils.tsx:4-83 | Whatever fails, order ids stay unique and every id used stays below the next id. |
| ActiveOrder.OrphanOrder | hooks/CartUtils.tsx:16-60 | When creation succeeds and the item insert fails, the call returns false and leaves a new active order with no items. |
| ActiveOrder.SuccessKeepsTotals | hooks/CartUtils.tsx:63-77 | When every step succeeds, each order's total stays the sum of its item rows: the new total is the old one (or 0) plus price × quantity. |
| ActiveOrder.UpdateFailureLeavesStaleTotal | hooks/CartUtils.tsx:56-74 | When the insert succeeds and the update fails, the order's stored total falls short of its items by exactly price × quantity. |
| ActiveOrder.ActiveCountAfterAdd | hooks/CartUtils.tsx:7-41 | The user's active orders grow by one exactly when the lookup found none and creation succeeded; none are removed. |
| ActiveOrder.DuplicateActiveOrdersMultiply | hooks/CartUtils.tsx:7-29 | Once a user has two active orders, every add whose creation succeeds creates yet another one. |
| ActiveOrder.AtMostOneActiveOrder | hooks/CartUtils.tsx:7-41 | Without lookup failures, a user with at most one active order still has at most one. |
| EmployeeView.ItemsOfMembers | app/EmployeeView.tsx:99-106 | An item belongs to an order exactly when some row with that order id produced it. |
| EmployeeView.ItemsOfAppend | app/EmployeeView.tsx:99-106 | Grouping commutes with splitting the rows, so items appear in row order. |
| EmployeeView.ItemsOf | app/EmployeeView.tsx:99-106 | An order gets exactly one item per item row carrying its id. |
| EmployeeView.ToOrder | app/EmployeeView.tsx:93-107 | A card copies the row's id, status, number and total. The customer name is never empty: a missing or empty name shows "Customer". |
| EmployeeView.FetchOrders | app/EmployeeView.tsx:79-109 | If either query fails, the list is left as it was. Otherwise there is one card per order row, in order. |
| EmployeeView.ChangeStatus | app/EmployeeView.tsx:133-153 | With no selection, or a failed update, nothing changes. Otherwise exactly the cards with the selected id take the new status, and length, order and all other fields are kept. |
| EmployeeView.NoTransitionGuard | app/EmployeeView.tsx:272-310 | Any of the three dialog statuses is applied from any current status, including "Completed". |
| EmployeeView.ChangeStatusIdempotent | app/EmployeeView.tsx:143-149 | Applying the same status twice equals applying it once. |
| EmployeeView.ChangeStatusUndo | app/EmployeeView.tsx:143-149 | Re-applying the previous common status restores the list. |
| Text.DigitsOf | app/PaymentSettings.tsx:12 | The result holds only ASCII digits, is no longer than the input, and equals an all-digit input. |
| Text.DigitsOfAppend | app/PaymentSettings.tsx:74 | Filtering digits distributes over concatenation. |
| Text.DigitsOfIdempotent | app/PaymentSettings.tsx:74 | Filtering the card number again, as happens on every keystroke of the field, leaves it unchanged. |
| Text.RemoveChar | app/EditProfile.tsx:109 | No dash remains, nothing is added, and text without dashes is unchanged. A single character is dropped exactly when it is the dash. |
| Text.RemoveCharAppend | app/EditProfile.tsx:109 | Removing a character distributes over concatenation. With the one-character case, every other character is kept, in order. |
| Text.Trim | app/EditProfile.tsx:106-108 | The result is the slice of the input left after dropping white space only, from both ends, with no ECMAScript white space at either end; an input with none is unchanged. |
| Text.TrimUnique | app/EditProfile.tsx:106-108 | Any slice surrounded by white space and with no white space at its own ends is the trimmed string, so the trimmed result is determined by the input. |
| Text.Lower | app/SelectLocation.tsx:108-109 | Same length; each ASCII capital becomes the small letter 32 code points up, and every other character is kept. |
| Text.LowerContains | app/SelectLocation.tsx:105-110 | Lower-casing both sides keeps a substring occurrence. |
| Text.ContainsTransitive | app/SelectLocation.tsx:105-110 | Substring occurrence is transitive. |
| Text.NatToString | app/PickUpTime.tsx:74 | The decimal rendering: digits only, one digit exactly below 10, and no leading zero. |
| Text.Pad2 | app/PickUpTime.tsx:74 | `padStart(2, "0")` on a minute: digits only, two of them below 100, and the plain rendering from 10 up. |
| Text.ParseNatToString | app/PickUpTime.tsx:64 | `Number` reads back the decimal rendering of every natural number. |
| Text.Utf16Length | app/SignUp.tsx:30 | `length` counts UTF-16 units: between the number of characters and twice that, and equal to it for text in the Basic Multilingual Plane. One character counts 1 below U+10000 and 2 (a surrogate pair) from there on. |
| Text.Utf16LengthAppend | app/SignUp.tsx:30 | The UTF-16 length of joined text is the sum of the lengths, so every character adds its own 1 or 2 units. |
| PaymentSettings.GetCardType | app/PaymentSettings.tsx:11-20 | A leading 4 is Visa. "Unknown" is returned only when neither the Visa nor the MasterCard prefix matches. |
| PaymentSettings.FamiliesDisjoint | app/PaymentSettings.tsx:13-18 | Each brand is returned exactly when the digits fall in its prefix family: 4; 51-55; 34/37; 6011/65; 3528-3589; 300-305/36/38. |
| PaymentSettings.UnknownIffNoFamily | app/PaymentSettings.tsx:19 | "Unknown" is returned exactly when the digits are in no family. |
| PaymentSettings.LabelInjective | app/PaymentSettings.tsx:13-19 | The seven labels are distinct. |
| PaymentSettings.NoDigitsUnknown | app/PaymentSettings.tsx:12-19 | An input with no digits, the empty one included, is "Unknown". |
| PaymentSettings.TypeOfDigits | app/PaymentSettings.tsx:12 | Classification depends only on the digits. |
| PaymentSettings.TypeStableAfterFour | app/PaymentSettings.tsx:13-18 | Appending digits to a number of four or more digits never changes its type. |
| PaymentSettings.InputChange | app/PaymentSettings.tsx:71-85 | The card-number field keeps only the digits. The other fields are stored verbatim, and untouched fields keep their values. |
| PaymentSettings.Last4 | app/PaymentSettings.tsx:99 | The result is the final min(4, n) characters of the number. |
| PaymentSettings.SaveCard | app/PaymentSettings.tsx:87-127 | Without a user nothing is written. A failed insert keeps the form. With a user and a successful insert the card is saved: the row has the user, the type of the number, its last four characters, the expiry as typed and the joined cardholder name, and the form is cleared. |
| PaymentSettings.SavedFromTypedNumber | app/PaymentSettings.tsx:71-99 | A number typed into the form is saved with at most four digits as its last four, which end the digits typed, and with the type of those digits. |
| PaymentSettings.WithoutId | app/PaymentSettings.tsx:135 | Exactly the cards without the id remain. |
| PaymentSettings.DeleteCard | app/PaymentSettings.tsx:129-137 | A failed delete keeps the list. Otherwise exactly the cards with the id are removed. |
| PaymentSettings.DeleteKeepsOrder | app/PaymentSettings.tsx:135 | The remaining cards keep their order, and the list shrinks by exactly the number of cards with the id. |
| PaymentSettings.DeleteIdempotent | app/PaymentSettings.tsx:135 | Deleting twice is deleting once. |
| EditProfile.PhoneDigits | app/EditProfile.tsx:34-35 | All digits, and a prefix of the input's digits: all of them up to ten, otherwise the first ten. |
| EditProfile.FormatPhone | app/EditProfile.tsx:33-44 | At most 12 characters, each a digit or '-'. |
| EditProfile.DashPlacement | app/EditProfile.tsx:35-43 | Up to three digits gives no dash. Four to six digits gives one dash after the third. Seven to ten digits gives dashes after the third and the sixth. |
| EditProfile.FormatStripsToDigits | app/EditProfile.tsx:33-44 | Removing the dashes gives back the first ten digits of the input. |
| EditProfile.FormatKeepsDigits | app/EditProfile.tsx:33-44 | The digits of the formatted number are the first ten digits of the input. |
| EditProfile.FormatIdempotent | app/EditProfile.tsx:85-91 | Formatting a formatted number changes nothing, so re-formatting on every keystroke is stable. |
| EditProfile.ChangeSet | app/EditProfile.tsx:106-115 | Name and email are sent exactly when the trimmed value differs from the stored one. The phone is sent, without dashes, exactly when it differs from the stored phone, with a missing stored phone counting as "". |
| EditProfile.Submit | app/EditProfile.tsx:100-141 | A missing or empty user id stops before the diff, and only then. An empty change set sends no update. With a user id and a non-empty change set, exactly that change set is sent, and the result is Updated when the update succeeds and UpdateFailed when it fails. |
| EditProfile.LoadForm | app/EditProfile.tsx:70-75 | The phone field is loaded formatted. |
| EditProfile.LoadThenSubmitUnchanged | app/EditProfile.tsx:70-120 | Loading a profile whose name and email are trimmed, and whose phone is at most ten digits, then submitting it untouched, sends nothing. |
| PickUpTime.DayOptions | app/PickUpTime.tsx:19-27 | Exactly seven options. The first is "Today", option i is i days ahead, and options 1-6 are named after the weekday i days after today. |
| PickUpTime.DayLabelsDistinct | app/PickUpTime.tsx:19-27 | The seven labels are pairwise distinct. |
| PickUpTime.WeekdayAfter | app/PickUpTime.tsx:19-21 | Counting i days forward from today's weekday gives (weekday + i) mod 7, a weekday number. |
| PickUpTime.Parse | app/PickUpTime.tsx:45-46 | A parsed slot is spelled by the text: hour digits, a colon, minute digits, a space and the slot's "AM" or "PM". |
| PickUpTime.ParseSpelled | app/PickUpTime.tsx:45-46 | Conversely, text that spells a slot that way parses to exactly that slot. |
| PickUpTime.SplitAt | app/PickUpTime.tsx:45-46 | The parts re-join to the input around the first separator. |
| PickUpTime.ParseRender | app/PickUpTime.tsx:45-46 | Reading a rendered time gives the time back. |
| PickUpTime.SlotsMatchTable | app/PickUpTime.tsx:32-36 | The structured table renders to the twelve slot strings, and every slot is a valid 12-hour time. |
| PickUpTime.Hour24 | app/PickUpTime.tsx:47 | For hours 1-12 the 24-hour value lies in 0-23, sits at the same place on the 12-hour dial, and is 12 or more exactly when the period is PM. |
| PickUpTime.Hour24Range | app/PickUpTime.tsx:47 | For hours 1-12 the 24-hour value lies in 0-23, and the conversion is one to one over hour and period. |
| PickUpTime.Add30MinsAsWritten | app/PickUpTime.tsx:62-75 | Minutes carry past the hour: the new minute is (m + 30) mod 60. |
| PickUpTime.NoonEndsAtMidnight | app/PickUpTime.tsx:70-73 | As written, "11:30 AM" ends at "12:00 PM", but "12:00 PM" ends at "12:30 AM", which is not 30 minutes later. |
| PickUpTime.AsWrittenCorrectOffTwelve | app/PickUpTime.tsx:62-75 | As written, the end is exactly 30 minutes later (mod one day) if and only if the start is not in the first half hour of twelve o'clock. |
| PickUpTime.TableOnlyNoonWrong | app/PickUpTime.tsx:32-36 | In the slot table, every slot except "12:00 PM" ends exactly 30 minutes later. |
| PickUpTime.Add30Mins | app/PickUpTime.tsx:62-75 | Corrected: the result is a valid time exactly 30 minutes later, modulo one day. |
| PickUpTime.FixAgreesOffTwelve | app/PickUpTime.tsx:62-75 | The correction agrees with the code everywhere outside twelve o'clock's first half hour. |
| PickUpTime.Confirm | app/PickUpTime.tsx:38-60 | With no time, or an empty one, nothing is chosen. A chosen time carries the day's offset, the 24-hour hour, the minute, and the label "<day>, <start> - <end>" with the end computed as the code does. |
| PickUpTime.ConfirmTableSlot | app/PickUpTime.tsx:32-54 | Every table slot confirms, and its stored hour and minute are the slot's time of day. |
| PickUpTime.ConfirmEndOffTwelve | app/PickUpTime.tsx:44-54 | Outside twelve o'clock's first half hour, the stored label ends exactly 30 minutes after its start. |
| PickUpTime.ConfirmNoonCaption | app/PickUpTime.tsx:32-54 | Confirming the "12:00 PM" slot gives a label ending "12:00 PM - 12:30 AM". |
| PickUpTime.Store | app/PickUpTime.tsx:49-59 | The time key is written exactly when a time was chosen and its write succeeds. The label key is written, and the screen moves to the cart, exactly when both writes succeed. What is written is the chosen time and label. |
| PickUpTime.LabelOnlyWithItsTime | app/PickUpTime.tsx:56-59 | For every table slot, a written label comes with the slot's time written beside it. A rejected label write after a successful time write leaves the new time without its label, on the same screen. |
| SelectLocation.FetchLocations | app/SelectLocation.tsx:44-49 | On error the list is kept. Otherwise it becomes the returned rows, or the empty list when none came back. |
| SelectLocation.Filter | app/SelectLocation.tsx:104-111 | An empty query returns the list unchanged. Otherwise a location is kept exactly when its lower-cased "name address city" contains the lower-cased query. |
| SelectLocation.FilterKeepsOrder | app/SelectLocation.tsx:105 | The result is an order-preserving subsequence of the list. |
| SelectLocation.FilterNarrows | app/SelectLocation.tsx:105-110 | A location kept for a query is kept for every query that the first one contains. |
| SelectLocation.NameMatchKept | app/SelectLocation.tsx:105-110 | A query found in the name, ignoring case, keeps the location. |
| SelectLocation.SpaceQueryKeepsAll | app/SelectLocation.tsx:104-110 | The query " " keeps every location, because the query is not trimmed. |
| SelectLocation.FindById | app/SelectLocation.tsx:79-81 | Finds a location exactly when one has the id, and the one found is the first such. |
| SelectLocation.ConfirmLocation | app/SelectLocation.tsx:76-98 | A missing or empty selection, or an id not in the list, saves nothing. Otherwise only the id and name of the first location with that id are saved. |
| SelectLocation.UseCurrentLocation | app/SelectLocation.tsx:60-74 | Saves {id "current", name "Current Location"} unless the write fails. |
| NotificationSettings.FromRow | app/NotificationSettings.tsx:54-73 | Exactly three switches, push_notifications, order_updates and promotions, in that order and with distinct ids. Each is on exactly when its column is true; a null column reads as off. |
| NotificationSettings.Load | app/NotificationSettings.tsx:29-79 | Without a session the screen goes to Login. A failed row read keeps the empty list and shows "Failed to load settings". Otherwise the three switches are loaded. |
| NotificationSettings.Find | app/NotificationSettings.tsx:85 | The first setting with the id is found: every earlier setting has another id. Nothing is found exactly when no setting has the id. |
| NotificationSettings.SetEnabled | app/NotificationSettings.tsx:90-92 | Exactly the entries with the id take the value; the others are unchanged. |
| NotificationSettings.Toggle | app/NotificationSettings.tsx:84-120 | An unknown id changes nothing. Otherwise the switch flips. Without a user nothing is written and the flip stays. With a user only the toggled column is written. A failed write flips the switch back. |
| NotificationSettings.FindUnique | app/NotificationSettings.tsx:85 | With unique ids, the setting found is the one with the id. |
| NotificationSettings.FailedWriteReverts | app/NotificationSettings.tsx:107-114 | With unique ids, a failed write restores the pre-toggle list exactly. |
| NotificationSettings.ToggleTwiceRestores | app/NotificationSettings.tsx:88-105 | With unique ids, two successful toggles of the same switch restore the list. |
| NotificationSettings.DuplicateIdsBreakRevert | app/NotificationSettings.tsx:107-114 | With duplicate ids, a failed write leaves every duplicate at the first one's old value. |
| NotificationSettings.UnauthenticatedKeepsFlip | app/NotificationSettings.tsx:97-100 | Without a user, the switch shows the new value although nothing was written. |
| NotificationSettings.LoadedIdsUnique | app/NotificationSettings.tsx:54-75 | The loaded list has unique ids. |
| SignUp.Request | app/SignUp.tsx:35-45 | The sign-up call is made exactly when the form passes. It carries the typed email and password, the name as `full_name`, and the role "customer" in lower case. |
| SignUp.MetadataRoleRejectedAtLogin | app/SignUp.tsx:39-42 | The role sent with the sign-up call, read by the login screen, would be an invalid role, since the login screen accepts only "Employee" and "Customer". |
| SignUp.Validate | app/SignUp.tsx:25-33 | The form passes exactly when all three fields are non-empty and the password is at least 6 UTF-16 units long. Any empty field gives the missing-fields message; otherwise a short password gives the short-password message. Nothing is trimmed. |
| SignUp.Submit | app/SignUp.tsx:24-88 | A failed validation is reported as is. A sign-up error reports its message, or "Failed to create account". A failed auto sign-in is reported. Once the user id is known, a failed row insert is reported as a save failure, and a successful one creates the row with that id, the email and the name, and goes Home. |
| SignUp.InvalidFormIgnoresServer | app/SignUp.tsx:25-33 | An invalid form is rejected whatever the remote results, so no remote call matters. |
| SignUp.AstralPasswordLongEnough | app/SignUp.tsx:30 | Three emoji make a password long enough, because length counts UTF-16 units. |
| SignUp.SessionSkipsSignIn | app/SignUp.tsx:52-66 | With a session, the sign-in result is never consulted. |
| Login.Dispatch | app/Login.tsx:74-82 | "Employee" goes to EmployeeView and "Customer" to "(tabs)/index", each with the message "Welcome, <role>!". Every other non-empty role is "Invalid role". |
| Login.Submit | app/Login.tsx:25-89 | Empty fields are rejected. A sign-in error stops with its message, or "Failed to log in". No user gives "Failed to fetch user session." and a failed role query gives "Failed to fetch user information.". A missing or empty role gives "User role not found", and any other role is dispatched. A welcome happens exactly when every step succeeds and the role is "Employee" or "Customer". |
| Login.RoleCaseSensitive | app/Login.tsx:74-81 | "customer" and "employee" are rejected as invalid roles. |
| Login.EmptyFieldsIgnoreServer | app/Login.tsx:26-29 | Empty fields are rejected whatever the remote results. |

## Findings

| source | as written | input that shows it | evidently intended | confidence | as-written member | corrected member |
|---|---|---|---|---|---|---|
| app/PickUpTime.tsx:70-73 | The period flips whenever the hour after the carry reads 12, even when no carry happened | the slot "12:00 PM" gets the end "12:30 AM" (also any 12:mm with mm < 30, AM or PM) | the period flips only when the carry moves the hour from 11 to 12, so the end is always 30 minutes after the start | high (not executed) | PickUpTime.NoonEndsAtMidnight | PickUpTime.Add30Mins |

`PickUpTime.Add30MinsAsWritten` models the code as written.
`PickUpTime.AsWrittenCorrectOffTwelve` says exactly where it goes wrong,
and `PickUpTime.TableOnlyNoonWrong` shows that "12:00 PM" is the only
affected slot in the table. `PickUpTime.Confirm` stores the label the code
builds, so `PickUpTime.ConfirmNoonCaption` shows the wrong end reaching
storage. Outside twelve o'clock's first half hour that label agrees with
the corrected `PickUpTime.Add30Mins` (`PickUpTime.FixAgreesOffTwelve`,
`PickUpTime.ConfirmEndOffTwelve`).

## Left out

- Supabase queries, auth calls and device storage are not modelled as
  clients. Each result or failure is a parameter. Every remote call is taken
  to return, with data or with an error.
- Toasts, navigation, loading spinners, modals and styling are left out,
  except where an outcome carries a message or a route.
- SHA-256 hashing of the card number is an external library. The saved
  row leaves the hash out.
- Dates are left out. This covers `new Date`, `toLocaleDateString`,
  `toLocaleTimeString`, `toISOString`, `setHours` and time zones. A day
  option carries its offset from today, and a pickup choice stores that
  offset with the 24-hour time.
- `toFixed(2)` and floating-point prices are left out: amounts are
  integer cents.
- Lower-casing covers ASCII letters only. `toLowerCase` also maps other
  scripts, which the model does not.
- React state updates are taken to be applied at once and in order.
  Concurrent presses and stale closures are not modelled: for example,
  `handleToggle` looks up the setting in its captured list but updates
  the latest one.
- Account, employee history, help center, layout and the auth gate are
  fetch-and-display screens with no logic of their own. The barcode
  scanner and Google sign-in use foreign SDKs. These are not part of
  this model.
- The sign-up screen sends the role "customer" in lower case as sign-up
  metadata and inserts the `users` row without a role, while the login
  screen requires a role of "Employee" or "Customer" in that row. The
  metadata role would be rejected at login
  (SignUp.MetadataRoleRejectedAtLogin). Whether the database copies or
  fills the role in cannot be seen from the code, so no property is
  claimed about a full sign-up-then-login run.
- Login.Submit and SignUp.Submit: a remote call that throws instead of
  returning an error ends in "An unexpected error occurred"
  (app/Login.tsx:83-85, app/SignUp.tsx:85-86). Every remote call is taken
  to return, so that outcome is not modelled.
- PickUpTime.Confirm: parses only start strings of the form "H:MM AM" or
  "H:MM PM" with a valid 12-hour time, and reports any other string as
  unreadable. The code instead computes a label with `NaN` in it. Only
  the table's strings can be selected.
- PaymentSettings.GetCardType: its own contract states only the Visa and
  "Unknown" cases. The full family-by-family characterisation is in
  `PaymentSettings.FamiliesDisjoint` and
  `PaymentSettings.UnknownIffNoFamily`.
- The cart screen (`app/(tabs)/Cart.tsx`) is not part of this model: its
  8% tax, its 2.00 service fee, and `handleCheckout`, which inserts the
  order with a generated barcode and its item rows and then clears the
  cart. Its floating-point totals and UUID generation are outside the
  integer-cents model.
- The order view's date and time fields and the order number's display
  are left out, since they are locale formatting.

=== FILE: active_order.dfy ===
/** The server-side "add to cart" of hooks/CartUtils.tsx: find the user's
    active order or create one, insert one `order_items` row, then raise the
    order's `total_price`. The remote tables are an in-memory store and each
    of the four remote steps has a failure flag. Amounts are integer cents. */
module ActiveOrder {

  import opened Options
  import Cart

  /** A row of the `orders` table as the hook uses it. */
  datatype OrderRow = OrderRow(id: nat, userId: string, status: string, totalPrice: int, locationId: string)

  /** A row of the `order_items` table. */
  datatype ItemRow = ItemRow(orderId: nat, productId: string, quantity: int, price: int, locationId: string)

  /** The two tables, in insertion order, and the next id the server will
      assign to an order. */
  datatype Store = Store(orders: seq<OrderRow>, items: seq<ItemRow>, nextId: nat)

  /** Which remote calls fail. */
  datatype Faults = Faults(lookupFails: bool, createFails: bool, insertFails: bool, updateFails: bool)

  const Active: string := "active"

  /** Ids are unique and every id in use is below `nextId`. */
  predicate WellFormed(s: Store) {
    && (forall i :: 0 <= i < |s.orders| ==> s.orders[i].id < s.nextId)
    && (forall i, j :: 0 <= i < j < |s.orders| ==> s.orders[i].id != s.orders[j].id)
    && (forall k :: 0 <= k < |s.items| ==> s.items[k].orderId < s.nextId)
  }

  /** The user's active orders, in table order. */
  function ActiveOrders(orders: seq<OrderRow>, userId: string): (r: seq<OrderRow>)
    ensures |r| <= |orders|
    ensures forall k :: 0 <= k < |r| ==> r[k].userId == userId && r[k].status == Active
  {
    if orders == [] then []
    else
      (if orders[0].userId == userId && orders[0].status == Active then [orders[0]] else [])
      + ActiveOrders(orders[1..], userId)
  }

  /** An order is listed exactly when it is one of the user's active orders. */
  lemma {:induction false} ActiveOrdersMembers(orders: seq<OrderRow>, userId: string)
    ensures forall o :: o in ActiveOrders(orders, userId) <==>
              o in orders && o.userId == userId && o.status == Active
  {
    if orders != [] {
      ActiveOrdersMembers(orders[1..], userId);
      assert orders == [orders[0]] + orders[1..];
    }
  }

  /** `select ... eq(user_id).eq(status, 'active').single()`: succeeds only when
      exactly one row matches; an error or no row both read as "none found". */
  function Lookup(s: Store, userId: string, fails: bool): (r: Option<OrderRow>)
    ensures r.Some? ==> r.value in s.orders && r.value.userId == userId && r.value.status == Active
    ensures r.Some? <==> !fails && |ActiveOrders(s.orders, userId)| == 1
  {
    var found := ActiveOrders(s.orders, userId);
    ActiveOrdersMembers(s.orders, userId);
    if fails || |found| != 1 then None else Some(found[0])
  }

  /** Sum of price × quantity over the item rows of order `id`. */
  function ItemsTotal(items: seq<ItemRow>, id: nat): int {
    if items == [] then 0
    else (if items[0].orderId == id then items[0].price * items[0].quantity else 0)
         + ItemsTotal(items[1..], id)
  }

  function ItemCount(items: seq<ItemRow>, id: nat): nat {
    if items == [] then 0 else (if items[0].orderId == id then 1 else 0) + ItemCount(items[1..], id)
  }

  /** `update({ total_price }).eq('id', id)`: every row with that id gets the
      new total; nothing else changes. */
  function SetTotal(orders: seq<OrderRow>, id: nat, total: int): (r: seq<OrderRow>)
    ensures |r| == |orders|
    ensures forall i :: 0 <= i < |orders| ==>
              r[i] == (if orders[i].id == id then orders[i].(totalPrice := total) else orders[i])
  {
    seq(|orders|, i requires 0 <= i < |orders| =>
      if orders[i].id == id then orders[i].(totalPrice := total) else orders[i])
  }

  /** The store after the call and the returned flag. */
  datatype Outcome = Outcome(store: Store, ok: bool)

  /** `handleAddToCart(product, quantity, userId, locationId)`. */
  function AddToActiveOrder(s: Store, p: Cart.Product, quantity: int, userId: string,
                            locationId: string, f: Faults): (r: Outcome)
    ensures r.ok <==> (Lookup(s, userId, f.lookupFails).Some? || !f.createFails)
                      && !f.insertFails && !f.updateFails
    // Order rows: reused when found, one created otherwise, none when creation fails.
    ensures Lookup(s, userId, f.lookupFails).Some? ==> |r.store.orders| == |s.orders|
    ensures Lookup(s, userId, f.lookupFails).None? && f.createFails ==> r.store == s
    ensures Lookup(s, userId, f.lookupFails).None? && !f.createFails ==>
              |r.store.orders| == |s.orders| + 1
              && r.store.orders[|s.orders|].id == s.nextId
              && r.store.orders[|s.orders|].userId == userId
              && r.store.orders[|s.orders|].status == Active
              && r.store.orders[|s.orders|].locationId == locationId
    // Totals: no existing row changes unless every step succeeds, and a created
    // order starts at 0. On success every row with the order's id carries the
    // found order's total (0 for a created one) plus price × quantity.
    ensures !r.ok ==> r.store.orders[..|s.orders|] == s.orders
    ensures Lookup(s, userId, f.lookupFails).None? && !f.createFails && !r.ok ==>
              r.store.orders[|s.orders|].totalPrice == 0
    ensures r.ok ==>
              var found := Lookup(s, userId, f.lookupFails);
              var id := if found.Some? then found.value.id else s.nextId;
              var total := (if found.Some? then found.value.totalPrice else 0) + p.price * quantity;
              && (forall i :: 0 <= i < |s.orders| ==>
                    r.store.orders[i] == if s.orders[i].id == id then s.orders[i].(totalPrice := total)
                                         else s.orders[i])
              && (found.None? ==> r.store.orders[|s.orders|].totalPrice == total)
    // Item rows: exactly one is added, and only when the insert succeeds.
    ensures |s.items| <= |r.store.items| <= |s.items| + 1
    ensures r.store.items[..|s.items|] == s.items
    ensures |r.store.items| == |s.items| + 1 <==>
              (Lookup(s, userId, f.lookupFails).Some? || !f.createFails) && !f.insertFails
    ensures |r.store.items| == |s.items| + 1 ==>
              var row := r.store.items[|s.items|];
              row.productId == p.id && row.quantity == quantity && row.price == p.price
              && row.locationId == locationId
              && row.orderId == (if Lookup(s, userId, f.lookupFails).Some?
                                 then Lookup(s, userId, f.lookupFails).value.id else s.nextId)
  {
    var existing := Lookup(s, userId, f.lookupFails);
    if existing.None? && f.createFails then
      Outcome(s, false)
    else
      var orderId := if existing.Some? then existing.value.id else s.nextId;
      var s1 := if existing.Some? then s
                else Store(s.orders + [OrderRow(s.nextId, userId, Active, 0, locationId)],
                           s.items, s.nextId + 1);
      if f.insertFails then
        Outcome(s1, false)
      else
        var s2 := s1.(items := s1.items + [ItemRow(orderId, p.id, quantity, p.price, locationId)]);
        var previous := if existing.Some? then existing.value.totalPrice else 0;
        var newTotal := previous + p.price * quantity;
        if f.updateFails then
          Outcome(s2, false)
        else
          Outcome(s2.(orders := SetTotal(s2.orders, orderId, newTotal)), true)
  }

  // ---------------------------------------------------------------------------
  // Lemmas
  // ---------------------------------------------------------------------------

  lemma {:induction false} ItemsTotalAppend(items: seq<ItemRow>, row: ItemRow, id: nat)
    ensures ItemsTotal(items + [row], id)
         == ItemsTotal(items, id) + (if row.orderId == id then row.price * row.quantity else 0)
  {
    if items != [] {
      assert (items + [row])[1..] == items[1..] + [row];
      ItemsTotalAppend(items[1..], row, id);
    }
  }

  lemma {:induction false} NoItemsForFreshId(items: seq<ItemRow>, id: nat)
    requires forall k :: 0 <= k < |items| ==> items[k].orderId < id
    ensures ItemsTotal(items, id) == 0 && ItemCount(items, id) == 0
  {
    if items != [] {
      NoItemsForFreshId(items[1..], id);
    }
  }

  /** The call keeps ids unique and below `nextId`, whatever fails. */
  lemma AddKeepsWellFormed(s: Store, p: Cart.Product, quantity: int, userId: string,
                           locationId: string, f: Faults)
    requires WellFormed(s)
    ensures WellFormed(AddToActiveOrder(s, p, quantity, userId, locationId, f).store)
  {
    var existing := Lookup(s, userId, f.lookupFails);
    if existing.Some? {
      AddToFoundOrderKeepsWellFormed(s, p, quantity, userId, locationId, f);
    } else if !f.createFails {
      AddToNewOrderKeepsWellFormed(s, p, quantity, userId, locationId, f);
    }
  }

  lemma AddToFoundOrderKeepsWellFormed(s: Store, p: Cart.Product, quantity: int, userId: string,
                                        locationId: string, f: Faults)
    requires WellFormed(s)
    requires Lookup(s, userId, f.lookupFails).Some?
    ensures WellFormed(AddToActiveOrder(s, p, quantity, userId, locationId, f).store)
  {
    var o := Lookup(s, userId, f.lookupFails).value;
    var j :| 0 <= j < |s.orders| && s.orders[j] == o;
    var s2 := s.(items := s.items + [ItemRow(o.id, p.id, quantity, p.price, locationId)]);
    InsertKeepsWellFormed(s, ItemRow(o.id, p.id, quantity, p.price, locationId));
    SetTotalKeepsWellFormed(s2, o.id, o.totalPrice + p.price * quantity);
  }

  lemma AddToNewOrderKeepsWellFormed(s: Store, p: Cart.Product, quantity: int, userId: string,
                                      locationId: string, f: Faults)
    requires WellFormed(s)
    requires Lookup(s, userId, f.lookupFails).None? && !f.createFails
    ensures WellFormed(AddToActiveOrder(s, p, quantity, userId, locationId, f).store)
  {
    var o := OrderRow(s.nextId, userId, Active, 0, locationId);
    var s1 := Store(s.orders + [o], s.items, s.nextId + 1);
    CreateKeepsWellFormed(s, o);
    var s2 := s1.(items := s1.items + [ItemRow(s.nextId, p.id, quantity, p.price, locationId)]);
    InsertKeepsWellFormed(s1, ItemRow(s.nextId, p.id, quantity, p.price, locationId));
    SetTotalKeepsWellFormed(s2, s.nextId, 0 + p.price * quantity);
  }

  lemma CreateKeepsWellFormed(s: Store, o: OrderRow)
    requires WellFormed(s) && o.id == s.nextId
    ensures WellFormed(Store(s.orders + [o], s.items, s.nextId + 1))
  {
    var orders := s.orders + [o];
    forall i, j | 0 <= i < j < |orders| ensures orders[i].id != orders[j].id {
      assert orders[i] == s.orders[i];
    }
  }

  lemma InsertKeepsWellFormed(s: Store, row: ItemRow)
    requires WellFormed(s) && row.orderId < s.nextId
    ensures WellFormed(s.(items := s.items + [row]))
  {
  }

  lemma SetTotalKeepsWellFormed(s: Store, id: nat, total: int)
    requires WellFormed(s)
    ensures WellFormed(s.(orders := SetTotal(s.orders, id, total)))
  {
    var r := SetTotal(s.orders, id, total);
    assert forall i :: 0 <= i < |r| ==> r[i].id == s.orders[i].id;
  }

  /** The orphan: when no active order is found, creating one succeeds and the
      item insert fails, the call returns false yet leaves a new active order
      behind that has no items. */
  lemma OrphanOrder(s: Store, p: Cart.Product, quantity: int, userId: string,
                    locationId: string, f: Faults)
    requires WellFormed(s)
    requires Lookup(s, userId, f.lookupFails).None? && !f.createFails && f.insertFails
    ensures var r := AddToActiveOrder(s, p, quantity, userId, locationId, f);
            && !r.ok
            && r.store.orders == s.orders + [OrderRow(s.nextId, userId, Active, 0, locationId)]
            && ItemCount(r.store.items, s.nextId) == 0
  {
    NoItemsForFreshId(s.items, s.nextId);
  }

  /** Every order's total equals the sum of its item rows. */
  predicate TotalsMatchItems(s: Store) {
    forall i :: 0 <= i < |s.orders| ==> s.orders[i].totalPrice == ItemsTotal(s.items, s.orders[i].id)
  }

  /** When every step succeeds, an order's stored total stays the sum of its
      items: the new total is the old one plus price × quantity. */
  lemma SuccessKeepsTotals(s: Store, p: Cart.Product, quantity: int, userId: string,
                           locationId: string, f: Faults)
    requires WellFormed(s) && TotalsMatchItems(s)
    requires AddToActiveOrder(s, p, quantity, userId, locationId, f).ok
    ensures TotalsMatchItems(AddToActiveOrder(s, p, quantity, userId, locationId, f).store)
  {
    var r := AddToActiveOrder(s, p, quantity, userId, locationId, f).store;
    var existing := Lookup(s, userId, f.lookupFails);
    var orderId := if existing.Some? then existing.value.id else s.nextId;
    var row := ItemRow(orderId, p.id, quantity, p.price, locationId);
    var s1 := if existing.Some? then s
              else Store(s.orders + [OrderRow(s.nextId, userId, Active, 0, locationId)],
                         s.items, s.nextId + 1);
    if existing.None? {
      NoItemsForFreshId(s.items, s.nextId);
    }
    assert r.items == s.items + [row];
    forall i | 0 <= i < |r.orders|
      ensures r.orders[i].totalPrice == ItemsTotal(r.items, r.orders[i].id)
    {
      ItemsTotalAppend(s.items, row, s1.orders[i].id);
      if s1.orders[i].id == orderId && existing.Some? {
        var j :| 0 <= j < |s.orders| && s.orders[j] == existing.value;
        assert s.orders[i].id == s.orders[j].id;
        assert i == j;
      }
    }
  }

  /** A failed total update after a successful insert leaves the order's total
      short of its items by exactly price × quantity. */
  lemma UpdateFailureLeavesStaleTotal(s: Store, p: Cart.Product, quantity: int, userId: string,
                                      locationId: string, f: Faults)
    requires WellFormed(s) && TotalsMatchItems(s)
    requires Lookup(s, userId, f.lookupFails).Some?
    requires !f.insertFails && f.updateFails
    ensures var r := AddToActiveOrder(s, p, quantity, userId, locationId, f);
            var o := Lookup(s, userId, f.lookupFails).value;
            && !r.ok
            && o in r.store.orders
            && ItemsTotal(r.store.items, o.id) == o.totalPrice + p.price * quantity
  {
    var o := Lookup(s, userId, f.lookupFails).value;
    var row := ItemRow(o.id, p.id, quantity, p.price, locationId);
    ItemsTotalAppend(s.items, row, o.id);
  }

  // ---------------------------------------------------------------------------
  // How many active orders a user has
  // ---------------------------------------------------------------------------

  lemma {:induction false} ActiveOrdersAppend(orders: seq<OrderRow>, o: OrderRow, userId: string)
    ensures ActiveOrders(orders + [o], userId)
         == ActiveOrders(orders, userId) + (if o.userId == userId && o.status == Active then [o] else [])
  {
    if orders != [] {
      assert (orders + [o])[1..] == orders[1..] + [o];
      ActiveOrdersAppend(orders[1..], o, userId);
    }
  }

  lemma {:induction false} ActiveOrdersSetTotal(orders: seq<OrderRow>, id: nat, total: int, userId: string)
    ensures |ActiveOrders(SetTotal(orders, id, total), userId)| == |ActiveOrders(orders, userId)|
  {
    if orders != [] {
      assert SetTotal(orders, id, total)[1..] == SetTotal(orders[1..], id, total);
      ActiveOrdersSetTotal(orders[1..], id, total, userId);
    }
  }

  /** The call adds an active order for the user exactly when it creates one,
      and never removes one. */
  lemma ActiveCountAfterAdd(s: Store, p: Cart.Product, quantity: int, userId: string,
                            locationId: string, f: Faults)
    ensures var r := AddToActiveOrder(s, p, quantity, userId, locationId, f);
            |ActiveOrders(r.store.orders, userId)|
            == |ActiveOrders(s.orders, userId)|
               + (if Lookup(s, userId, f.lookupFails).None? && !f.createFails then 1 else 0)
  {
    var existing := Lookup(s, userId, f.lookupFails);
    if !(existing.None? && f.createFails) {
      var orderId := if existing.Some? then existing.value.id else s.nextId;
      var orders1 := if existing.Some? then s.orders
                     else s.orders + [OrderRow(s.nextId, userId, Active, 0, locationId)];
      if existing.None? {
        ActiveOrdersAppend(s.orders, OrderRow(s.nextId, userId, Active, 0, locationId), userId);
      }
      var newTotal := (if existing.Some? then existing.value.totalPrice else 0) + p.price * quantity;
      ActiveOrdersSetTotal(orders1, orderId, newTotal, userId);
    }
  }

  /** `.single()` fails when two rows match, so once a user has two active
      orders every further add creates yet another one. */
  lemma DuplicateActiveOrdersMultiply(s: Store, p: Cart.Product, quantity: int, userId: string,
                                      locationId: string, f: Faults)
    requires |ActiveOrders(s.orders, userId)| >= 2 && !f.createFails
    ensures |ActiveOrders(AddToActiveOrder(s, p, quantity, userId, locationId, f).store.orders, userId)|
            == |ActiveOrders(s.orders, userId)| + 1
  {
    ActiveCountAfterAdd(s, p, quantity, userId, locationId, f);
  }

  /** Without lookup failures a user never gets a second active order. */
  lemma AtMostOneActiveOrder(s: Store, p: Cart.Product, quantity: int, userId: string,
                             locationId: string, f: Faults)
    requires |ActiveOrders(s.orders, userId)| <= 1 && !f.lookupFails
    ensures |ActiveOrders(AddToActiveOrder(s, p, quantity, userId, locationId, f).store.orders, userId)| <= 1
  {
    ActiveCountAfterAdd(s, p, quantity, userId, locationId, f);
  }
}

=== FILE: cart.dfy ===
/** The client-side cart kept under the storage key "cart" and the two screens
    that edit it by adding a product: the product details screen
    (app/ProductDetails.tsx), which adds a chosen quantity, and the product
    card (components/ProductCard.tsx), which adds one. Prices are integer
    cents. */
module Cart {

  import opened Options

  /** A catalog product as the screens receive it. */
  datatype Product = Product(id: string, name: string, price: int, unit: string)

  /** One cart entry. Lines created from a product carry its unit; lines
      created by "reorder" have none. */
  datatype Line = Line(id: string, name: string, price: int, unit: Option<string>, quantity: int)

  type Cart = seq<Line>

  /** The line `{ ...product, quantity }`. */
  function NewLine(p: Product, quantity: int): Line {
    Line(p.id, p.name, p.price, Some(p.unit), quantity)
  }

  /** The stored blob, with a missing entry read as `[]`. */
  function Load(stored: Option<Cart>): Cart {
    stored.GetOr([])
  }

  // ---------------------------------------------------------------------------
  // Independent descriptions of a cart
  // ---------------------------------------------------------------------------

  predicate HasId(c: Cart, id: string) {
    exists j :: 0 <= j < |c| && c[j].id == id
  }

  /** `i` is the first position whose line has id `id`. */
  predicate FirstWithId(c: Cart, id: string, i: int) {
    0 <= i < |c| && c[i].id == id && forall j :: 0 <= j < i ==> c[j].id != id
  }

  predicate UniqueIds(c: Cart) {
    forall i, j :: 0 <= i < j < |c| ==> c[i].id != c[j].id
  }

  /** Total quantity held under id `id`, over all lines with that id. */
  function QuantityOf(c: Cart, id: string): int {
    if c == [] then 0
    else (if c[0].id == id then c[0].quantity else 0) + QuantityOf(c[1..], id)
  }

  function LineValue(l: Line): int {
    l.price * l.quantity
  }

  /** Sum of price × quantity over the lines, in cents. */
  function Value(c: Cart): int {
    if c == [] then 0 else LineValue(c[0]) + Value(c[1..])
  }

  // ---------------------------------------------------------------------------
  // Array.prototype.findIndex on the id
  // ---------------------------------------------------------------------------

  function FindIndex(c: Cart, id: string): (r: Option<nat>)
    ensures r.Some? <==> HasId(c, id)
    ensures r.Some? ==> FirstWithId(c, id, r.value)
  {
    if c == [] then None
    else if c[0].id == id then Some(0)
    else match FindIndex(c[1..], id)
      case None => None
      case Some(k) => Some(k + 1)
  }

  // ---------------------------------------------------------------------------
  // Quantity selector (app/ProductDetails.tsx)
  // ---------------------------------------------------------------------------

  datatype QuantityAction = Increase | Decrease

  /** The selector's starting value. */
  const InitialQuantity: int := 1

  /** `handleQuantityChange`: increase adds one; decrease subtracts one only
      when the quantity is above one. */
  function ChangeQuantity(q: int, a: QuantityAction): (r: int)
    ensures q >= 1 ==> r >= 1
    ensures r == q + 1 || r == q - 1 || r == q
    ensures r < q ==> a == Decrease && q > 1
    ensures r > q ==> a == Increase
    ensures a == Increase ==> r == q + 1
    ensures a == Decrease && q > 1 ==> r == q - 1
    ensures a == Decrease && q <= 1 ==> r == q
  {
    match a
    case Increase => q + 1
    case Decrease => if q > 1 then q - 1 else q
  }

  /** The selector after a run of button presses. */
  function ApplyActions(q: int, acts: seq<QuantityAction>): int
    decreases acts
  {
    if acts == [] then q else ApplyActions(ChangeQuantity(q, acts[0]), acts[1..])
  }

  function CountIncreases(acts: seq<QuantityAction>): nat {
    if acts == [] then 0 else (if acts[0] == Increase then 1 else 0) + CountIncreases(acts[1..])
  }

  /** From any start at or above one, no sequence of presses takes the selector
      below one, and it never exceeds the start plus the number of increases. */
  lemma {:induction false} QuantityStaysPositive(q: int, acts: seq<QuantityAction>)
    requires q >= 1
    ensures 1 <= ApplyActions(q, acts) <= q + CountIncreases(acts)
    decreases acts
  {
    if acts != [] {
      QuantityStaysPositive(ChangeQuantity(q, acts[0]), acts[1..]);
    }
  }

  /** Whatever the user presses, starting from the initial value, the chosen
      quantity is at least one. */
  lemma SelectedQuantityPositive(acts: seq<QuantityAction>)
    ensures ApplyActions(InitialQuantity, acts) >= 1
  {
    QuantityStaysPositive(InitialQuantity, acts);
  }

  /** The amount on the add button: unit price × selected quantity. One unit
      costs the unit price, and each further unit adds the unit price once. */
  function ButtonTotal(price: int, quantity: int): (r: int)
    requires quantity >= 1
    ensures quantity == 1 ==> r == price
    ensures quantity > 1 ==> r == ButtonTotal(price, quantity - 1) + price
    ensures price >= 0 ==> r >= price
    ensures price <= 0 ==> r <= price
  {
    price * quantity
  }

  // ---------------------------------------------------------------------------
  // Add-or-increment (both screens)
  // ---------------------------------------------------------------------------

  /** The merge in `handleAddToCart` of the product details screen: grow the
      first line with the product's id by `q`, or append a new line. */
  function AddOrIncrement(c: Cart, p: Product, q: int): (r: Cart)
    ensures HasId(c, p.id) ==> |r| == |c|
    ensures !HasId(c, p.id) ==> r == c + [NewLine(p, q)]
    ensures forall i :: FirstWithId(c, p.id, i) ==> r[i] == c[i].(quantity := c[i].quantity + q)
    ensures forall j :: 0 <= j < |c| && !FirstWithId(c, p.id, j) ==> r[j] == c[j]
  {
    match FindIndex(c, p.id)
    case Some(i) => Grow(c, i, q)
    case None => c + [NewLine(p, q)]
  }

  /** The cart with line `i` grown by `q`. */
  function Grow(c: Cart, i: nat, q: int): Cart
    requires i < |c|
  {
    c[i := c[i].(quantity := c[i].quantity + q)]
  }

  /** The merge in `handleAddToCart` of the product card: grow the first line
      with the product's id by one, or append a line of quantity one. */
  function AddOne(c: Cart, p: Product): (r: Cart)
    ensures |c| <= |r| <= |c| + 1
    ensures forall j :: 0 <= j < |c| && !FirstWithId(c, p.id, j) ==> r[j] == c[j]
  {
    match FindIndex(c, p.id)
    case Some(i) => Grow(c, i, 1)
    case None => c + [NewLine(p, 1)]
  }

  /** The card's add is the details screen's add with quantity one. */
  lemma AddOneIsAddOfOne(c: Cart, p: Product)
    ensures AddOne(c, p) == AddOrIncrement(c, p, 1)
    ensures HasId(c, p.id) ==> QuantityOf(AddOne(c, p), p.id) == QuantityOf(c, p.id) + 1
    ensures !HasId(c, p.id) ==> AddOne(c, p) == c + [NewLine(p, 1)]
  {
    AddQuantityOf(c, p, 1, p.id);
  }

  // ---------------------------------------------------------------------------
  // What an add does to the totals
  // ---------------------------------------------------------------------------

  lemma {:induction false} QuantityOfAppend(c: Cart, l: Line, id: string)
    ensures QuantityOf(c + [l], id) == QuantityOf(c, id) + (if l.id == id then l.quantity else 0)
  {
    if c != [] {
      assert (c + [l])[1..] == c[1..] + [l];
      QuantityOfAppend(c[1..], l, id);
    }
  }

  lemma {:induction false} QuantityOfUpdate(c: Cart, i: nat, l: Line, id: string)
    requires i < |c| && l.id == c[i].id
    ensures QuantityOf(c[i := l], id)
         == QuantityOf(c, id) + (if l.id == id then l.quantity - c[i].quantity else 0)
  {
    if i == 0 {
      assert c[i := l][1..] == c[1..];
    } else {
      assert c[i := l][1..] == c[1..][i - 1 := l];
      QuantityOfUpdate(c[1..], i - 1, l, id);
    }
  }

  /** Adding `q` of a product raises the quantity held under its id by exactly
      `q` and leaves the quantity under every other id alone. */
  lemma AddQuantityOf(c: Cart, p: Product, q: int, id: string)
    ensures QuantityOf(AddOrIncrement(c, p, q), id)
         == QuantityOf(c, id) + (if id == p.id then q else 0)
  {
    match FindIndex(c, p.id)
    case Some(i) =>
      assert c[i].id == p.id;
      var l := c[i].(quantity := c[i].quantity + q);
      assert AddOrIncrement(c, p, q) == c[i := l];
      QuantityOfUpdate(c, i, l, id);
    case None =>
      QuantityOfAppend(c, NewLine(p, q), id);
  }

  lemma {:induction false} ValueAppend(c: Cart, l: Line)
    ensures Value(c + [l]) == Value(c) + LineValue(l)
  {
    if c != [] {
      assert (c + [l])[1..] == c[1..] + [l];
      ValueAppend(c[1..], l);
    }
  }

  /** When the cart's lines for the product carry the product's current price,
      an add raises the cart's value by exactly the button total. A line saved
      at an older price is grown at that older price instead. */
  lemma AddValue(c: Cart, p: Product, q: int)
    requires q >= 1
    requires forall j :: 0 <= j < |c| && c[j].id == p.id ==> c[j].price == p.price
    ensures Value(AddOrIncrement(c, p, q)) == Value(c) + ButtonTotal(p.price, q)
  {
    var f := FindIndex(c, p.id);
    if f.Some? {
      var i := f.value;
      assert c[i].id == p.id;
      var price := c[i].price;
      assert price == p.price;
      assert AddOrIncrement(c, p, q) == Grow(c, i, q);
      GrowValue(c, i, q);
      assert price * q == ButtonTotal(p.price, q);
    } else {
      ValueAppend(c, NewLine(p, q));
    }
  }

  lemma {:induction false} GrowValue(c: Cart, i: nat, q: int)
    requires i < |c|
    ensures Value(Grow(c, i, q)) == Value(c) + c[i].price * q
  {
    if i == 0 {
      assert Grow(c, i, q)[1..] == c[1..];
      GrowLine(c[0], q);
    } else {
      assert Grow(c, i, q)[1..] == Grow(c[1..], i - 1, q);
      GrowValue(c[1..], i - 1, q);
    }
  }

  lemma GrowLine(l: Line, q: int)
    ensures LineValue(l.(quantity := l.quantity + q)) == LineValue(l) + l.price * q
  {
    assert l.price * (l.quantity + q) == l.price * l.quantity + l.price * q;
  }

  /** An add never introduces a second line for an id. */
  lemma AddKeepsIdsUnique(c: Cart, p: Product, q: int)
    requires UniqueIds(c)
    ensures UniqueIds(AddOrIncrement(c, p, q))
    ensures HasId(AddOrIncrement(c, p, q), p.id)
  {
    var r := AddOrIncrement(c, p, q);
    if !HasId(c, p.id) {
      assert r[|c|].id == p.id;
    } else {
      var i := FindIndex(c, p.id).value;
      assert r[i].id == p.id;
      forall a, b | 0 <= a < b < |r|
        ensures r[a].id != r[b].id
      {
        assert r[a].id == c[a].id && r[b].id == c[b].id;
      }
    }
  }

  // ---------------------------------------------------------------------------
  // The two screens' handlers over the stored blob
  // ---------------------------------------------------------------------------

  /** `handleAddToCart` of the product details screen. `stored` is the blob
      read from storage (`None` when absent); the result is the blob after the
      call. Nothing happens before the product has loaded, and a failing
      storage write leaves the blob as it was. */
  function DetailsAddToCart(stored: Option<Cart>, product: Option<Product>, q: int, writeFails: bool)
    : (r: Option<Cart>)
    ensures product.None? || writeFails ==> r == stored
    ensures product.Some? && !writeFails && stored.None? ==> r == Some([NewLine(product.value, q)])
    ensures product.Some? && !writeFails ==> r == Some(AddOrIncrement(Load(stored), product.value, q))
    ensures product.Some? && !writeFails ==>
              r.Some? && QuantityOf(r.value, product.value.id) == QuantityOf(Load(stored), product.value.id) + q
  {
    match product
    case None => stored
    case Some(p) =>
      if writeFails then stored
      else
        assert !HasId([], p.id);
        assert [] + [NewLine(p, q)] == [NewLine(p, q)];
        AddQuantityOf(Load(stored), p, q, p.id);
        Some(AddOrIncrement(Load(stored), p, q))
  }

  /** The outcome of the product card's `handleAddToCart`: the blob afterwards
      and whether the `onAddToCart` callback ran. */
  datatype CardOutcome = CardOutcome(stored: Option<Cart>, callbackRan: bool)

  /** `handleAddToCart` of the product card. A storage failure is caught and
      logged; the callback runs whenever one was supplied, failure or not. */
  function CardAddToCart(stored: Option<Cart>, p: Product, storageFails: bool, hasCallback: bool)
    : (r: CardOutcome)
    ensures r.callbackRan == hasCallback
    ensures storageFails ==> r.stored == stored
    ensures !storageFails ==> r.stored.Some? && |Load(stored)| <= |r.stored.value| <= |Load(stored)| + 1
    ensures !storageFails ==> r.stored == Some(AddOrIncrement(Load(stored), p, 1))
  {
    var next := if storageFails then stored else Some(AddOne(Load(stored), p));
    AddOneIsAddOfOne(Load(stored), p);
    CardOutcome(next, hasCallback)
  }
}

=== FILE: edit_profile.dfy ===
/** The profile editor (app/EditProfile.tsx): the phone formatter applied on
    every keystroke, and the change set computed on submit. */
module EditProfile {

  import opened Options
  import opened Text

  // ---------------------------------------------------------------------------
  // Phone formatting
  // ---------------------------------------------------------------------------

  /** The first ten digits of the input: a prefix of its digits, as long as
      possible up to ten. */
  function PhoneDigits(value: string): (r: string)
    ensures AllDigits(r) && |r| <= 10
    ensures |r| == if |DigitsOf(value)| < 10 then |DigitsOf(value)| else 10
    ensures r == DigitsOf(value)[..|r|]
  {
    var d := DigitsOf(value);
    if |d| <= 10 then d else d[..10]
  }

  /** `formatPhoneNumber`: up to ten digits, grouped 3-3-4 with dashes. */
  function FormatPhone(value: string): (r: string)
    ensures |r| <= 12
    ensures forall i :: 0 <= i < |r| ==> IsDigit(r[i]) || r[i] == '-'
  {
    var n := PhoneDigits(value);
    if |n| > 6 then n[..3] + "-" + n[3..6] + "-" + n[6..]
    else if |n| > 3 then n[..3] + "-" + n[3..]
    else n
  }

  /** Where the dashes go: none for up to three digits, one after the third
      digit for four to six, and after the third and the sixth for seven to
      ten. */
  lemma DashPlacement(value: string)
    ensures var n := PhoneDigits(value);
            var r := FormatPhone(value);
            && (|n| <= 3 ==> r == n)
            && (3 < |n| <= 6 ==>
                  |r| == |n| + 1 && r[3] == '-'
                  && forall i :: 0 <= i < |r| && i != 3 ==> IsDigit(r[i]))
            && (6 < |n| ==>
                  |r| == |n| + 2 && r[3] == '-' && r[7] == '-'
                  && forall i :: 0 <= i < |r| && i != 3 && i != 7 ==> IsDigit(r[i]))
  {
    var n := PhoneDigits(value);
    var r := FormatPhone(value);
    if |n| > 6 {
      assert r == n[..3] + "-" + n[3..6] + "-" + n[6..];
      forall i | 0 <= i < |r| && i != 3 && i != 7 ensures IsDigit(r[i]) {
        if i < 3 { assert r[i] == n[i]; }
        else if i < 7 { assert r[i] == n[i - 1]; }
        else { assert r[i] == n[i - 2]; }
      }
    } else if |n| > 3 {
      forall i | 0 <= i < |r| && i != 3 ensures IsDigit(r[i]) {
        if i < 3 { assert r[i] == n[i]; }
        else { assert r[i] == n[i - 1]; }
      }
    }
  }

  /** Dropping the dashes from the formatted number gives back its digits. */
  lemma FormatStripsToDigits(value: string)
    ensures RemoveChar(FormatPhone(value), '-') == PhoneDigits(value)
  {
    DashesOnly(FormatPhone(value));
    FormatKeepsDigits(value);
  }

  /** On a string of digits and dashes, dropping the dashes keeps the digits. */
  lemma {:induction false} DashesOnly(s: string)
    requires forall i :: 0 <= i < |s| ==> IsDigit(s[i]) || s[i] == '-'
    ensures RemoveChar(s, '-') == DigitsOf(s)
  {
    if s != [] {
      DashesOnly(s[1..]);
    }
  }

  /** The digits of the formatted number are the first ten digits of the
      input. */
  lemma FormatKeepsDigits(value: string)
    ensures DigitsOf(FormatPhone(value)) == PhoneDigits(value)
  {
    var n := PhoneDigits(value);
    if |n| > 6 {
      var x, y, z := n[..3], n[3..6], n[6..];
      DigitsAroundDash(x, y);
      DigitsAroundDash(x + "-" + y, z);
      assert DigitsOf(x) == x && DigitsOf(y) == y && DigitsOf(z) == z;
      assert x + y + z == n;
    } else if |n| > 3 {
      var x, y := n[..3], n[3..];
      DigitsAroundDash(x, y);
      assert DigitsOf(x) == x && DigitsOf(y) == y;
      assert x + y == n;
    }
  }

  lemma DigitsAroundDash(a: string, b: string)
    ensures DigitsOf(a + "-" + b) == DigitsOf(a) + DigitsOf(b)
  {
    var dash := "-";
    DigitsOfAppend(a + dash, b);
    DigitsOfAppend(a, dash);
    assert DigitsOf(dash) == [] by {
      assert dash[1..] == [];
    }
    assert DigitsOf(a + dash) == DigitsOf(a);
  }

  /** Formatting is idempotent, so re-formatting on every keystroke is stable. */
  lemma FormatIdempotent(value: string)
    ensures FormatPhone(FormatPhone(value)) == FormatPhone(value)
  {
    FormatKeepsDigits(value);
  }

  // ---------------------------------------------------------------------------
  // Submit
  // ---------------------------------------------------------------------------

  /** The loaded `users` row; absent columns are `None`. */
  datatype Profile = Profile(id: Option<string>, name: Option<string>, email: Option<string>,
                             phone: Option<string>)

  datatype Form = Form(fullName: string, email: string, phone: string)

  /** The columns to update; `None` means the column is not sent. */
  datatype Changes = Changes(name: Option<string>, email: Option<string>, phoneNumber: Option<string>)

  predicate IsEmpty(c: Changes) {
    c.name.None? && c.email.None? && c.phoneNumber.None?
  }

  /** `trimmed !== stored`: a missing stored value differs from every string. */
  predicate Differs(value: string, stored: Option<string>) {
    stored.None? || stored.value != value
  }

  /** The change set built in `handleSubmit`: each trimmed field is sent only
      when it differs from the stored value. The phone is compared and sent
      without dashes, against the stored phone or "" when there is none. */
  function ChangeSet(form: Form, p: Profile): (c: Changes)
    ensures c.name.Some? <==> Differs(Trim(form.fullName), p.name)
    ensures c.name.Some? ==> c.name.value == Trim(form.fullName)
    ensures c.email.Some? <==> Differs(Trim(form.email), p.email)
    ensures c.email.Some? ==> c.email.value == Trim(form.email)
    ensures c.phoneNumber.Some? <==> RemoveChar(Trim(form.phone), '-') != p.phone.GetOr("")
    ensures c.phoneNumber.Some? ==> c.phoneNumber.value == RemoveChar(Trim(form.phone), '-')
  {
    var name := Trim(form.fullName);
    var email := Trim(form.email);
    var phone := RemoveChar(Trim(form.phone), '-');
    Changes(
      if Differs(name, p.name) then Some(name) else None,
      if Differs(email, p.email) then Some(email) else None,
      if phone != p.phone.GetOr("") then Some(phone) else None)
  }

  datatype SubmitOutcome = MissingUserId | NoChanges | UpdateFailed | Updated(changes: Changes)

  /** `userData?.id` is truthy. */
  predicate HasUserId(profile: Option<Profile>) {
    profile.Some? && profile.value.id.Some? && profile.value.id.value != ""
  }

  /** `handleSubmit`: a missing or empty user id stops before the diff; an
      empty change set sends no update; otherwise the update is sent. */
  function Submit(form: Form, profile: Option<Profile>, updateFails: bool): (r: SubmitOutcome)
    ensures r == MissingUserId <==> !HasUserId(profile)
    ensures r.Updated? ==> !IsEmpty(r.changes) && r.changes == ChangeSet(form, profile.value)
    ensures r == NoChanges <==> r != MissingUserId && IsEmpty(ChangeSet(form, profile.value))
    ensures r == UpdateFailed ==> updateFails
    ensures HasUserId(profile) && !IsEmpty(ChangeSet(form, profile.value)) ==>
              r == if updateFails then UpdateFailed else Updated(ChangeSet(form, profile.value))
  {
    if !HasUserId(profile) then MissingUserId
    else
      var c := ChangeSet(form, profile.value);
      if IsEmpty(c) then NoChanges
      else if updateFails then UpdateFailed
      else Updated(c)
  }

  /** The form as `fetchUserInfo` fills it from the stored row. */
  function LoadForm(p: Profile): (f: Form)
    ensures f.phone == FormatPhone(p.phone.GetOr(""))
  {
    Form(p.name.GetOr(""), p.email.GetOr(""), FormatPhone(p.phone.GetOr("")))
  }

  /** Loading a profile and submitting it untouched sends nothing, provided the
      stored name and email are present and already trimmed and the stored
      phone is at most ten plain digits. */
  lemma LoadThenSubmitUnchanged(p: Profile)
    requires p.name.Some? && Trim(p.name.value) == p.name.value
    requires p.email.Some? && Trim(p.email.value) == p.email.value
    requires AllDigits(p.phone.GetOr("")) && |p.phone.GetOr("")| <= 10
    ensures IsEmpty(ChangeSet(LoadForm(p), p))
  {
    var stored := p.phone.GetOr("");
    assert PhoneDigits(stored) == stored;
    TrimFormatted(stored);
    FormatStripsToDigits(stored);
  }

  /** A formatted number has no white space to trim. */
  lemma TrimFormatted(value: string)
    ensures Trim(FormatPhone(value)) == FormatPhone(value)
  {
    var ph := FormatPhone(value);
    if ph != [] {
      var first, last := ph[0], ph[|ph| - 1];
      assert IsDigit(first) || first == '-';
      assert IsDigit(last) || last == '-';
      NotWhite(first);
      NotWhite(last);
    }
  }

  lemma NotWhite(c: char)
    requires IsDigit(c) || c == '-'
    ensures !IsWhite(c)
  {
  }
}

=== FILE: employee_view.dfy ===
/** The employee order list (app/EmployeeView.tsx): today's orders joined with
    their item rows by `order_id`, and the status change applied from the
    status dialog. Amounts are integer cents. */
module EmployeeView {

  import opened Options

  /** A fetched `orders` row with the joined customer name. */
  datatype OrderRow = OrderRow(id: string, status: string, totalPrice: int, orderNumber: string,
                               customerName: Option<string>)

  /** A fetched `order_items` row with the joined product name. */
  datatype ItemRow = ItemRow(id: string, orderId: string, quantity: int, price: int, productName: string)

  datatype Item = Item(id: string, name: string, quantity: int, price: int)

  /** One card of the list. */
  datatype Order = Order(id: string, status: string, orderNumber: string, total: int,
                         customerName: string, items: seq<Item>)

  /** The three statuses the dialog offers. */
  const InProgress: string := "In Progress"
  const ReadyForPickup: string := "Ready for Pickup"
  const Completed: string := "Completed"

  const DefaultCustomer: string := "Customer"

  function ToItem(row: ItemRow): Item {
    Item(row.id, row.productName, row.quantity, row.price)
  }

  /** The number of item rows carrying the order id `id`. */
  function RowsFor(rows: seq<ItemRow>, id: string): nat {
    if rows == [] then 0 else (if rows[0].orderId == id then 1 else 0) + RowsFor(rows[1..], id)
  }

  /** `orderItemsData.filter(item => item.order_id === id).map(...)`: one item
      per row carrying the order's id. */
  function ItemsOf(rows: seq<ItemRow>, id: string): (r: seq<Item>)
    ensures |r| <= |rows|
    ensures |r| == RowsFor(rows, id)
  {
    if rows == [] then []
    else (if rows[0].orderId == id then [ToItem(rows[0])] else []) + ItemsOf(rows[1..], id)
  }

  /** An item belongs to an order exactly when some row with the order's id
      produced it. */
  lemma {:induction false} ItemsOfMembers(rows: seq<ItemRow>, id: string)
    ensures forall it :: it in ItemsOf(rows, id) <==>
              exists k :: 0 <= k < |rows| && rows[k].orderId == id && ToItem(rows[k]) == it
  {
    if rows != [] {
      var rest := ItemsOf(rows[1..], id);
      ItemsOfMembers(rows[1..], id);
      forall it | it in rest
        ensures exists k :: 1 <= k < |rows| && rows[k].orderId == id && ToItem(rows[k]) == it
      {
        var k :| 0 <= k < |rows[1..]| && rows[1..][k].orderId == id && ToItem(rows[1..][k]) == it;
        assert rows[k + 1] == rows[1..][k];
      }
      forall it, k | 1 <= k < |rows| && rows[k].orderId == id && ToItem(rows[k]) == it
        ensures it in rest
      {
        assert rows[1..][k - 1] == rows[k];
      }
    }
  }

  /** Keeping the matching rows commutes with splitting the row list, so the
      items of an order appear in the order of the rows. */
  lemma {:induction false} ItemsOfAppend(a: seq<ItemRow>, b: seq<ItemRow>, id: string)
    ensures ItemsOf(a + b, id) == ItemsOf(a, id) + ItemsOf(b, id)
  {
    if a == [] {
      assert a + b == b;
    } else {
      var ab := a + b;
      var head := if a[0].orderId == id then [ToItem(a[0])] else [];
      assert ab[0] == a[0];
      assert ab[1..] == a[1..] + b;
      ItemsOfAppend(a[1..], b, id);
      assert ItemsOf(ab, id) == head + (ItemsOf(a[1..], id) + ItemsOf(b, id));
      assert ItemsOf(a, id) == head + ItemsOf(a[1..], id);
    }
  }

  /** The card built for one order row. A missing or empty customer name
      shows as "Customer". */
  function ToOrder(o: OrderRow, rows: seq<ItemRow>): (r: Order)
    ensures r.id == o.id && r.status == o.status && r.total == o.totalPrice
            && r.orderNumber == o.orderNumber
    ensures r.customerName != ""
    ensures o.customerName.Some? && o.customerName.value != "" ==> r.customerName == o.customerName.value
    ensures o.customerName.None? || o.customerName.value == "" ==> r.customerName == DefaultCustomer
    ensures r.items == ItemsOf(rows, o.id)
  {
    var name := if o.customerName.Some? && o.customerName.value != "" then o.customerName.value
                else DefaultCustomer;
    Order(o.id, o.status, o.orderNumber, o.totalPrice, name, ItemsOf(rows, o.id))
  }

  /** `fetchOrders`: when both queries succeed the list is rebuilt, one card
      per order row in row order; when either fails the list is left as it
      was. */
  function FetchOrders(current: seq<Order>, orders: Option<seq<OrderRow>>, items: Option<seq<ItemRow>>)
    : (r: seq<Order>)
    ensures orders.None? || items.None? ==> r == current
    ensures orders.Some? && items.Some? ==>
              |r| == |orders.value|
              && forall i :: 0 <= i < |r| ==> r[i] == ToOrder(orders.value[i], items.value)
  {
    if orders.None? || items.None? then current
    else seq(|orders.value|, i requires 0 <= i < |orders.value| => ToOrder(orders.value[i], items.value))
  }

  /** `handleStatusChange(newStatus)`. Nothing happens with no order selected
      or when the update fails. Otherwise every card whose id is the selected
      id takes the new status, whatever its current status; all else stays. */
  function ChangeStatus(list: seq<Order>, selected: Option<string>, newStatus: string, updateFails: bool)
    : (r: seq<Order>)
    ensures selected.None? || updateFails ==> r == list
    ensures |r| == |list|
    ensures forall i :: 0 <= i < |list| && (selected.None? || updateFails || list[i].id != selected.value)
              ==> r[i] == list[i]
    ensures forall i :: 0 <= i < |list| && selected.Some? && !updateFails && list[i].id == selected.value
              ==> r[i] == list[i].(status := newStatus)
  {
    match selected
    case None => list
    case Some(id) =>
      if updateFails then list
      else seq(|list|, i requires 0 <= i < |list| =>
             if list[i].id == id then list[i].(status := newStatus) else list[i])
  }

  /** There is no transition guard: from any status, including "Completed",
      each of the three dialog statuses is applied as chosen. */
  lemma NoTransitionGuard(list: seq<Order>, i: nat, newStatus: string)
    requires i < |list|
    requires newStatus == InProgress || newStatus == ReadyForPickup || newStatus == Completed
    ensures ChangeStatus(list, Some(list[i].id), newStatus, false)[i].status == newStatus
  {
  }

  /** Applying the same status twice is the same as applying it once. */
  lemma ChangeStatusIdempotent(list: seq<Order>, id: string, s: string)
    ensures ChangeStatus(ChangeStatus(list, Some(id), s, false), Some(id), s, false)
         == ChangeStatus(list, Some(id), s, false)
  {
    var once := ChangeStatus(list, Some(id), s, false);
    var twice := ChangeStatus(once, Some(id), s, false);
    assert |twice| == |once|;
    forall i | 0 <= i < |once| ensures twice[i] == once[i] {
    }
  }

  /** Applying the previous status after a change restores the list, when
      every card with the selected id had that previous status. */
  lemma ChangeStatusUndo(list: seq<Order>, id: string, s: string, back: string)
    requires forall i :: 0 <= i < |list| && list[i].id == id ==> list[i].status == back
    ensures ChangeStatus(ChangeStatus(list, Some(id), s, false), Some(id), back, false) == list
  {
    var twice := ChangeStatus(ChangeStatus(list, Some(id), s, false), Some(id), back, false);
    assert |twice| == |list|;
    forall i | 0 <= i < |list| ensures twice[i] == list[i] {
    }
  }
}

=== FILE: login.dfy ===
/** Sign-in (app/Login.tsx): field validation, the password sign-in, the
    user lookup and the role lookup, then the route chosen by role. Each
    remote call's result is a parameter. */
module Login {

  import opened Options

  /** `auth.signInWithPassword`: an error with its message, or success. */
  datatype SignInResult = SignInError(message: string) | SignedIn

  /** The `users` lookup by id with `.single()`: an error (including no row or
      several rows), or the row's role column. */
  datatype RoleQuery = QueryError | RoleRow(role: Option<string>)

  datatype Outcome = Rejected(message: string) | Welcome(message: string, route: string)

  const MissingFields: string := "Please fill in all fields"
  const LoginFailed: string := "Failed to log in"
  const NoSession: string := "Failed to fetch user session."
  const NoUserInfo: string := "Failed to fetch user information."
  const NoRole: string := "User role not found. Please contact support."
  const InvalidRole: string := "Invalid role. Please contact support."
  const Employee: string := "Employee"
  const Customer: string := "Customer"
  const EmployeeRoute: string := "EmployeeView"
  const CustomerRoute: string := "(tabs)/index"

  /** The role dispatch: exact, case-sensitive comparison. A welcome greets
      the role by name. */
  function Dispatch(role: string): (r: Outcome)
    requires role != ""
    ensures r.Welcome? <==> role == Employee || role == Customer
    ensures r.Welcome? ==> r.route == (if role == Employee then EmployeeRoute else CustomerRoute)
    ensures r.Welcome? ==> r.message == "Welcome, " + role + "!"
    ensures r.Rejected? ==> r.message == InvalidRole
  {
    if role == Employee then Welcome("Welcome, Employee!", EmployeeRoute)
    else if role == Customer then Welcome("Welcome, Customer!", CustomerRoute)
    else Rejected(InvalidRole)
  }

  /** `handleSubmit`. `userId` is the id `auth.getUser` returns, absent when
      there is no user. */
  function Submit(email: string, password: string, signIn: SignInResult, userId: Option<string>,
                  roleQuery: RoleQuery): (r: Outcome)
    ensures email == "" || password == "" ==> r == Rejected(MissingFields)
    ensures r.Welcome? <==>
              && email != "" && password != "" && signIn.SignedIn? && userId.Some?
              && roleQuery.RoleRow? && roleQuery.role.Some?
              && (roleQuery.role.value == Employee || roleQuery.role.value == Customer)
    ensures email != "" && password != "" && signIn.SignInError? ==>
              r == Rejected(if signIn.message == "" then LoginFailed else signIn.message)
    ensures r.Welcome? ==>
              r.route == (if roleQuery.role.value == Employee then EmployeeRoute else CustomerRoute)
    ensures (email != "" && password != "" && signIn.SignedIn? && userId.Some? && roleQuery.RoleRow?
             && (roleQuery.role.None? || roleQuery.role.value == "")) ==> r == Rejected(NoRole)
    ensures (email != "" && password != "" && signIn.SignedIn? && userId.None?) ==> r == Rejected(NoSession)
    ensures (email != "" && password != "" && signIn.SignedIn? && userId.Some? && roleQuery.QueryError?)
              ==> r == Rejected(NoUserInfo)
    ensures (email != "" && password != "" && signIn.SignedIn? && userId.Some? && roleQuery.RoleRow?
             && roleQuery.role.Some? && roleQuery.role.value != "") ==> r == Dispatch(roleQuery.role.value)
  {
    if email == "" || password == "" then Rejected(MissingFields)
    else match signIn
      case SignInError(message) => Rejected(if message == "" then LoginFailed else message)
      case SignedIn =>
        if userId.None? then Rejected(NoSession)
        else match roleQuery
          case QueryError => Rejected(NoUserInfo)
          case RoleRow(role) =>
            if role.None? || role.value == "" then Rejected(NoRole)
            else Dispatch(role.value)
  }

  /** Roles are matched exactly: "customer" and "employee" are rejected as
      invalid roles. */
  lemma RoleCaseSensitive(email: string, password: string, userId: string)
    requires email != "" && password != ""
    ensures Submit(email, password, SignedIn, Some(userId), RoleRow(Some("customer")))
         == Rejected(InvalidRole)
    ensures Submit(email, password, SignedIn, Some(userId), RoleRow(Some("employee")))
         == Rejected(InvalidRole)
  {
  }

  /** Empty fields stop before any remote call: the outcome does not depend
      on any remote result. */
  lemma EmptyFieldsIgnoreServer(email: string, password: string,
                                s1: SignInResult, u1: Option<string>, q1: RoleQuery,
                                s2: SignInResult, u2: Option<string>, q2: RoleQuery)
    requires email == "" || password == ""
    ensures Submit(email, password, s1, u1, q1) == Submit(email, password, s2, u2, q2) == Rejected(MissingFields)
  {
  }
}

=== FILE: notification_settings.dfy ===
/** The notification preferences screen (app/NotificationSettings.tsx): three
    switches loaded from the user's `notifications` row, and the optimistic
    toggle that writes one column and reverts the switch when the write
    fails. */
module NotificationSettings {

  import opened Options

  datatype Setting = Setting(id: string, title: string, description: string, enabled: bool)

  /** The columns of the user's `notifications` row; `None` is SQL null. */
  datatype Row = Row(pushNotifications: Option<bool>, orderUpdates: Option<bool>,
                     promotions: Option<bool>)

  /** The toast shown after an action. */
  datatype Toast = NoToast | ErrorToast(text: string) | SuccessToast(text: string)

  const PushId: string := "push_notifications"
  const OrderUpdatesId: string := "order_updates"
  const PromotionsId: string := "promotions"

  predicate UniqueIds(settings: seq<Setting>) {
    forall i, j :: 0 <= i < j < |settings| ==> settings[i].id != settings[j].id
  }

  lemma IdsDistinct()
    ensures PushId != OrderUpdatesId && PushId != PromotionsId && OrderUpdatesId != PromotionsId
  {
    assert PushId[0] != OrderUpdatesId[0] && PushId[1] != PromotionsId[1];
    assert OrderUpdatesId[0] != PromotionsId[0];
  }

  // ---------------------------------------------------------------------------
  // Load
  // ---------------------------------------------------------------------------

  /** The screen state after `fetchNotificationSettings`. */
  datatype Screen = Screen(settings: seq<Setting>, loading: bool, redirectedToLogin: bool,
                           toast: Toast)

  /** The three switches built from a fetched row; a null column reads as off. */
  function FromRow(row: Row): (r: seq<Setting>)
    ensures |r| == 3 && UniqueIds(r)
    ensures r[0].id == PushId && r[1].id == OrderUpdatesId && r[2].id == PromotionsId
    ensures r[0].enabled <==> row.pushNotifications == Some(true)
    ensures r[1].enabled <==> row.orderUpdates == Some(true)
    ensures r[2].enabled <==> row.promotions == Some(true)
  {
    IdsDistinct();
    [ Setting(PushId, "Push Notifications", "Receive alerts about orders and deals",
              row.pushNotifications.GetOr(false)),
      Setting(OrderUpdatesId, "Order Updates", "Status changes and delivery updates",
              row.orderUpdates.GetOr(false)),
      Setting(PromotionsId, "Promotions", "Deals, discounts, and special offers",
              row.promotions.GetOr(false)) ]
  }

  /** `fetchNotificationSettings`, from the initial empty, loading screen.
      Without a session the screen goes to Login and keeps loading. When the
      row cannot be read (an error, or not exactly one row) the list stays
      empty and "Failed to load settings" is shown. */
  function Load(hasSession: bool, row: Option<Row>): (r: Screen)
    ensures !hasSession ==> r.redirectedToLogin && r.loading && r.settings == []
    ensures hasSession ==> !r.redirectedToLogin && !r.loading
    ensures hasSession && row.None? ==> r.settings == [] && r.toast == ErrorToast("Failed to load settings")
    ensures hasSession && row.Some? ==> r.settings == FromRow(row.value) && r.toast == NoToast
  {
    if !hasSession then Screen([], true, true, NoToast)
    else match row
      case None => Screen([], false, false, ErrorToast("Failed to load settings"))
      case Some(values) => Screen(FromRow(values), false, false, NoToast)
  }

  // ---------------------------------------------------------------------------
  // Toggle
  // ---------------------------------------------------------------------------

  /** The first setting with the given id (`Array.prototype.find`). */
  function Find(settings: seq<Setting>, id: string): (r: Option<Setting>)
    ensures r.Some? ==> r.value in settings && r.value.id == id
    ensures r.None? ==> forall i :: 0 <= i < |settings| ==> settings[i].id != id
    ensures r.Some? && |settings| > 0 && settings[0].id == id ==> r.value == settings[0]
    ensures r.Some? ==> exists k :: 0 <= k < |settings| && settings[k] == r.value &&
                                    forall j :: 0 <= j < k ==> settings[j].id != id
  {
    if settings == [] then None
    else if settings[0].id == id then Some(settings[0])
    else Find(settings[1..], id)
  }

  /** `prev.map(s => s.id === id ? { ...s, enabled: value } : s)`. */
  function SetEnabled(settings: seq<Setting>, id: string, value: bool): (r: seq<Setting>)
    ensures |r| == |settings|
    ensures forall i :: 0 <= i < |settings| ==>
              r[i] == if settings[i].id == id then settings[i].(enabled := value) else settings[i]
  {
    seq(|settings|, i requires 0 <= i < |settings| =>
      if settings[i].id == id then settings[i].(enabled := value) else settings[i])
  }

  /** The list shown, the column written to the server (`{ [id]: value }`),
      and the toast. */
  datatype Toggled = Toggled(settings: seq<Setting>, written: Option<(string, bool)>, toast: Toast)

  /** `handleToggle(id)`. An unknown id does nothing. Otherwise the switch is
      flipped at once; without a signed-in user (missing or empty id) nothing
      is written and the flip stays; a failed write flips it back. */
  function Toggle(settings: seq<Setting>, id: string, userId: Option<string>, updateFails: bool)
    : (r: Toggled)
    ensures Find(settings, id).None? ==> r == Toggled(settings, None, NoToast)
    ensures Find(settings, id).Some? ==>
              var value := !Find(settings, id).value.enabled;
              var title := Find(settings, id).value.title;
              && (userId.None? || userId.value == "" ==>
                    r == Toggled(SetEnabled(settings, id, value), None,
                                 ErrorToast("User not authenticated.")))
              && (userId.Some? && userId.value != "" ==> r.written == Some((id, value)))
              && (userId.Some? && userId.value != "" && updateFails ==>
                    r.settings == SetEnabled(SetEnabled(settings, id, value), id, !value)
                    && r.toast == ErrorToast("Failed to update " + title))
              && (userId.Some? && userId.value != "" && !updateFails ==>
                    r.settings == SetEnabled(settings, id, value)
                    && r.toast == SuccessToast(title + " " + (if value then "enabled" else "disabled")))
  {
    match Find(settings, id)
    case None => Toggled(settings, None, NoToast)
    case Some(setting) =>
      var value := !setting.enabled;
      var flipped := SetEnabled(settings, id, value);
      if userId.None? || userId.value == "" then
        Toggled(flipped, None, ErrorToast("User not authenticated."))
      else if updateFails then
        Toggled(SetEnabled(flipped, id, !value), Some((id, value)), ErrorToast("Failed to update " + setting.title))
      else
        Toggled(flipped, Some((id, value)), SuccessToast(setting.title + " " + (if value then "enabled" else "disabled")))
  }

  /** With unique ids the found setting is the only one with its id. */
  lemma FindUnique(settings: seq<Setting>, id: string, i: nat)
    requires UniqueIds(settings) && i < |settings| && settings[i].id == id
    ensures Find(settings, id) == Some(settings[i])
  {
    if settings[0].id != id {
      assert i > 0;
      assert UniqueIds(settings[1..]) by {
        forall a, b | 0 <= a < b < |settings[1..]| ensures settings[1..][a].id != settings[1..][b].id {
          assert settings[1..][a] == settings[a + 1] && settings[1..][b] == settings[b + 1];
        }
      }
      FindUnique(settings[1..], id, i - 1);
    }
  }

  /** Setting a switch twice keeps only the second value. */
  lemma SetEnabledOverwrite(settings: seq<Setting>, id: string, v: bool, w: bool)
    ensures SetEnabled(SetEnabled(settings, id, v), id, w) == SetEnabled(settings, id, w)
  {
  }

  /** Setting the only switch with an id to its current value changes nothing. */
  lemma SetEnabledCurrent(settings: seq<Setting>, id: string, k: nat)
    requires UniqueIds(settings) && k < |settings| && settings[k].id == id
    ensures SetEnabled(settings, id, settings[k].enabled) == settings
  {
    var r := SetEnabled(settings, id, settings[k].enabled);
    forall i | 0 <= i < |settings| ensures r[i] == settings[i] {
      if settings[i].id == id {
        assert i == k;
      }
    }
  }

  lemma SetEnabledKeepsIds(settings: seq<Setting>, id: string, v: bool)
    requires UniqueIds(settings)
    ensures UniqueIds(SetEnabled(settings, id, v))
  {
    var r := SetEnabled(settings, id, v);
    assert forall i :: 0 <= i < |r| ==> r[i].id == settings[i].id;
  }

  /** A failed write restores the list exactly, when ids are unique. */
  lemma FailedWriteReverts(settings: seq<Setting>, id: string, userId: string)
    requires UniqueIds(settings) && userId != ""
    ensures Toggle(settings, id, Some(userId), true).settings == settings
  {
    if Find(settings, id).Some? {
      var k :| 0 <= k < |settings| && settings[k] == Find(settings, id).value;
      var v := !settings[k].enabled;
      SetEnabledOverwrite(settings, id, v, !v);
      SetEnabledCurrent(settings, id, k);
    }
  }

  /** Two successful toggles of the same switch restore the list, when ids
      are unique. */
  lemma ToggleTwiceRestores(settings: seq<Setting>, id: string, userId: string)
    requires UniqueIds(settings) && userId != ""
    ensures var once := Toggle(settings, id, Some(userId), false).settings;
            Toggle(once, id, Some(userId), false).settings == settings
  {
    if Find(settings, id).Some? {
      var k :| 0 <= k < |settings| && settings[k] == Find(settings, id).value;
      var v := !settings[k].enabled;
      var once := SetEnabled(settings, id, v);
      SetEnabledKeepsIds(settings, id, v);
      assert once[k].id == id && once[k].enabled == v;
      FindUnique(once, id, k);
      SetEnabledOverwrite(settings, id, v, !v);
      SetEnabledCurrent(settings, id, k);
    }
  }

  /** With duplicate ids a failed write does not restore the list: every
      duplicate takes the first one's old value. */
  lemma DuplicateIdsBreakRevert()
    ensures var a := Setting("x", "A", "", true);
            var b := Setting("x", "B", "", false);
            Toggle([a, b], "x", Some("u"), true).settings == [a, b.(enabled := true)]
  {
  }

  /** Without a user the switch shows the new value although nothing was
      written. */
  lemma UnauthenticatedKeepsFlip(settings: seq<Setting>, i: nat)
    requires UniqueIds(settings) && i < |settings|
    ensures var r := Toggle(settings, settings[i].id, None, false);
            r.written.None? && r.settings[i].enabled == !settings[i].enabled
  {
    FindUnique(settings, settings[i].id, i);
  }

  /** The loaded list has unique ids, so the lemmas above apply to it. */
  lemma LoadedIdsUnique(row: Row)
    ensures UniqueIds(Load(true, Some(row)).settings)
  {
  }
}

=== FILE: options.dfy ===
/** The optional-value wrapper shared by every screen model: `None` stands for
    JavaScript's `null`/`undefined` (and, where the source tests truthiness,
    for the empty string as well). */
module Options {

  datatype Option<+T> = None | Some(value: T) {

    /** The value, or `default` when absent (the source's `x ?? default`). */
    function GetOr(default: T): (r: T)
      ensures Some? ==> r == value
      ensures None? ==> r == default
    {
      match this
      case Some(v) => v
      case None => default
    }
  }
}

=== FILE: order_details.dfy ===
/** The order details screen (app/OrderDetails.tsx): the transform from the
    fetched `orders` row (with its `order_items` and `payments`) to the view,
    the barcode's bar layout, and "Reorder Items", which appends the order's
    items to the stored cart. Amounts are integer cents. */
module OrderDetails {

  import opened Options
  import Cart
  import Text

  /** One joined `order_items` row: its own id, quantity, price and the
      product's name. */
  datatype ItemRow = ItemRow(id: string, quantity: int, price: int, productName: string)

  /** The joined `payments` record, when there is one. */
  datatype PaymentRef = PaymentRef(cardLast4: Option<string>)

  /** The fetched `orders` row. */
  datatype OrderRecord = OrderRecord(
    orderNumber: string,
    status: string,
    totalPrice: int,
    serviceFee: int,
    tax: int,
    barcode: Option<string>,
    items: seq<ItemRow>,
    payment: Option<PaymentRef>)

  datatype ItemView = ItemView(id: string, name: string, quantity: int, price: int)

  /** What the screen shows (the locale-formatted date and time are left out). */
  datatype OrderView = OrderView(
    orderNumber: string,
    status: string,
    items: seq<ItemView>,
    subtotal: int,
    serviceFee: int,
    tax: int,
    total: int,
    cardLast4: string,
    barcode: Option<string>)

  const NoCard: string := "N/A"
  const NoBarcodeMessage: string := "No barcode available"

  function ViewItem(row: ItemRow): ItemView {
    ItemView(row.id, row.productName, row.quantity, row.price)
  }

  /** `x || fallback` on a string: the empty string counts as missing. */
  function OrElse(x: Option<string>, fallback: string): (r: string)
    ensures x.Some? && x.value != "" ==> r == x.value
    ensures x.None? || x.value == "" ==> r == fallback
  {
    if x.Some? && x.value != "" then x.value else fallback
  }

  /** The order has a payment whose `card_last4` is present and non-empty. */
  predicate HasStoredLast4(o: OrderRecord) {
    o.payment.Some? && o.payment.value.cardLast4.Some? && o.payment.value.cardLast4.value != ""
  }

  /** The transform in `fetchOrderDetails`. The subtotal is not summed from
      the items: it is whatever remains of the stored total after the fee and
      the tax, so the three shown amounts always add up to the total. */
  function ToView(o: OrderRecord): (v: OrderView)
    ensures v.subtotal + v.serviceFee + v.tax == v.total
    ensures v.total == o.totalPrice && v.serviceFee == o.serviceFee && v.tax == o.tax
    ensures |v.items| == |o.items|
    ensures forall k :: 0 <= k < |o.items| ==>
              v.items[k].id == o.items[k].id && v.items[k].name == o.items[k].productName
              && v.items[k].quantity == o.items[k].quantity && v.items[k].price == o.items[k].price
    ensures v.cardLast4 != ""
    ensures HasStoredLast4(o) ==> v.cardLast4 == o.payment.value.cardLast4.value
    ensures !HasStoredLast4(o) ==> v.cardLast4 == NoCard
    ensures v.barcode.None? <==> (o.barcode.None? || o.barcode.value == "")
    ensures v.barcode.Some? ==> v.barcode == o.barcode
  {
    var last4 := match o.payment
      case None => NoCard
      case Some(pay) => OrElse(pay.cardLast4, NoCard);
    OrderView(
      o.orderNumber,
      o.status,
      seq(|o.items|, k requires 0 <= k < |o.items| => ViewItem(o.items[k])),
      o.totalPrice - o.serviceFee - o.tax,
      o.serviceFee,
      o.tax,
      o.totalPrice,
      last4,
      if o.barcode.Some? && o.barcode.value != "" then o.barcode else None)
  }

  /** `fetchOrderDetails`: the view is set only when the query returned an
      order; otherwise it stays as it was (initially absent). */
  function Fetch(current: Option<OrderView>, fetched: Option<OrderRecord>): (r: Option<OrderView>)
    ensures fetched.None? ==> r == current
    ensures fetched.Some? ==> r == Some(ToView(fetched.value))
    ensures fetched.Some? ==> r.Some? && r.value.total == fetched.value.totalPrice
  {
    match fetched
    case None => current
    case Some(o) => Some(ToView(o))
  }

  // ---------------------------------------------------------------------------
  // Barcode
  // ---------------------------------------------------------------------------

  datatype Bar = Wide | Narrow

  /** One bar per character of the barcode; bar `i` is wide when `i` is even. */
  function Bars(n: nat): (r: seq<Bar>)
    ensures |r| == n
  {
    seq(n, i => if i % 2 == 0 then Wide else Narrow)
  }

  datatype BarcodeSection = Drawn(bars: seq<Bar>, caption: string) | Missing(message: string)

  /** The barcode section of the screen. `split("")` cuts the code into
      UTF-16 code units, so one bar is drawn per unit. */
  function BarcodeOf(v: OrderView): (r: BarcodeSection)
    ensures v.barcode.None? ==> r == Missing(NoBarcodeMessage)
    ensures v.barcode.Some? ==> r.Drawn? && r.caption == v.barcode.value
                                && |r.bars| == Text.Utf16Length(v.barcode.value)
    ensures r.Drawn? ==> |v.barcode.value| <= |r.bars| <= 2 * |v.barcode.value|
  {
    match v.barcode
    case None => Missing(NoBarcodeMessage)
    case Some(code) => Drawn(Bars(Text.Utf16Length(code)), code)
  }

  function CountWide(bars: seq<Bar>): nat {
    if bars == [] then 0 else CountWide(bars[..|bars| - 1]) + (if bars[|bars| - 1] == Wide then 1 else 0)
  }

  /** Bars alternate starting with a wide one: bar `i` is wide exactly when
      `i` is even, so ⌈n/2⌉ of them are wide and no two neighbours have the
      same width. */
  lemma {:induction false} BarsAlternate(n: nat)
    ensures forall i :: 0 <= i < n ==> (Bars(n)[i] == Wide <==> i % 2 == 0)
    ensures CountWide(Bars(n)) == (n + 1) / 2
    ensures forall i :: 0 <= i < n - 1 ==> Bars(n)[i] != Bars(n)[i + 1]
  {
    if n > 0 {
      assert Bars(n)[..n - 1] == Bars(n - 1);
      BarsAlternate(n - 1);
    }
  }

  // ---------------------------------------------------------------------------
  // Reorder
  // ---------------------------------------------------------------------------

  /** The cart line built from an order item; its id is the order item's row
      id and it has no unit. */
  function ReorderLine(it: ItemView): Cart.Line {
    Cart.Line(it.id, it.name, it.price, None, it.quantity)
  }

  function ReorderLines(items: seq<ItemView>): (r: Cart.Cart)
    ensures |r| == |items|
    ensures forall k :: 0 <= k < |items| ==> r[k] == ReorderLine(items[k])
  {
    if items == [] then [] else [ReorderLine(items[0])] + ReorderLines(items[1..])
  }

  /** `handleReorder`: the blob after the call. Nothing happens before the
      order has loaded or when storage fails; otherwise every item is appended
      after the existing lines, with no merging. */
  function Reorder(order: Option<OrderView>, stored: Option<Cart.Cart>, storageFails: bool)
    : (r: Option<Cart.Cart>)
    ensures order.None? || storageFails ==> r == stored
    ensures order.Some? && !storageFails ==>
              r.Some?
              && |r.value| == |Cart.Load(stored)| + |order.value.items|
              && r.value[..|Cart.Load(stored)|] == Cart.Load(stored)
              && forall k :: 0 <= k < |order.value.items| ==>
                   r.value[|Cart.Load(stored)| + k] == ReorderLine(order.value.items[k])
  {
    match order
    case None => stored
    case Some(v) =>
      if storageFails then stored
      else
        var prior := Cart.Load(stored);
        var r := prior + ReorderLines(v.items);
        assert r[..|prior|] == prior;
        Some(r)
  }

  /** How many lines of a cart carry id `id`. */
  function LinesWithId(c: Cart.Cart, id: string): nat {
    if c == [] then 0 else (if c[0].id == id then 1 else 0) + LinesWithId(c[1..], id)
  }

  function ItemsWithId(items: seq<ItemView>, id: string): nat {
    if items == [] then 0 else (if items[0].id == id then 1 else 0) + ItemsWithId(items[1..], id)
  }

  lemma {:induction false} LinesWithIdAppend(a: Cart.Cart, b: Cart.Cart, id: string)
    ensures LinesWithId(a + b, id) == LinesWithId(a, id) + LinesWithId(b, id)
  {
    if a != [] {
      assert (a + b)[1..] == a[1..] + b;
      LinesWithIdAppend(a[1..], b, id);
    } else {
      assert a + b == b;
    }
  }

  lemma {:induction false} ReorderLinesWithId(items: seq<ItemView>, id: string)
    ensures LinesWithId(ReorderLines(items), id) == ItemsWithId(items, id)
  {
    if items != [] {
      ReorderLinesWithId(items[1..], id);
    }
  }

  /** Reorder never merges: under every id, the number of cart lines grows by
      the number of order items with that id. */
  lemma ReorderAddsLines(v: OrderView, stored: Option<Cart.Cart>, id: string)
    ensures LinesWithId(Reorder(Some(v), stored, false).value, id)
         == LinesWithId(Cart.Load(stored), id) + ItemsWithId(v.items, id)
  {
    LinesWithIdAppend(Cart.Load(stored), ReorderLines(v.items), id);
    ReorderLinesWithId(v.items, id);
  }

  /** Reordering the same order twice leaves two lines for each of its items,
      so the cart no longer has unique ids (unlike an add from a product
      screen, which keeps them unique). */
  lemma ReorderTwiceDuplicates(v: OrderView, stored: Option<Cart.Cart>)
    requires |v.items| > 0
    ensures !Cart.UniqueIds(Reorder(Some(v), Reorder(Some(v), stored, false), false).value)
  {
    var once := Reorder(Some(v), stored, false);
    var twice := Reorder(Some(v), once, false);
    var n := |Cart.Load(stored)|;
    var m := |v.items|;
    assert twice.value[n] == ReorderLine(v.items[0]);
    assert twice.value[n + m] == ReorderLine(v.items[0]);
  }
}

=== FILE: payment_settings.dfy ===
/** The saved-cards screen (app/PaymentSettings.tsx): the card-brand
    classifier, the form's input filter, the row built when a card is saved,
    and the list update after a delete. */
module PaymentSettings {

  import opened Options
  import opened Text
  import opened Seqs

  // ---------------------------------------------------------------------------
  // Card brand
  // ---------------------------------------------------------------------------

  datatype CardType = Visa | MasterCard | AmericanExpress | Discover | JCB | DinersClub | Unknown

  function Label(t: CardType): string {
    match t
    case Visa => "Visa"
    case MasterCard => "MasterCard"
    case AmericanExpress => "American Express"
    case Discover => "Discover"
    case JCB => "JCB"
    case DinersClub => "Diners Club"
    case Unknown => "Unknown"
  }

  /** The seven labels are distinct, so the stored `card_type` identifies the
      brand. */
  lemma LabelInjective(a: CardType, b: CardType)
    requires Label(a) == Label(b)
    ensures a == b
  {
  }

  /** The brand families as prefix sets of the digit string. */
  predicate VisaPrefix(d: string) {
    StartsWith(d, "4")
  }
  predicate MasterCardPrefix(d: string) {
    |d| >= 2 && d[0] == '5' && '1' <= d[1] <= '5'
  }
  predicate AmexPrefix(d: string) {
    StartsWith(d, "34") || StartsWith(d, "37")
  }
  predicate DiscoverPrefix(d: string) {
    StartsWith(d, "6011") || StartsWith(d, "65")
  }
  predicate JcbPrefix(d: string) {
    |d| >= 4 && d[..2] == "35"
    && ((d[2] == '2' && (d[3] == '8' || d[3] == '9')) || ('3' <= d[2] <= '8' && IsDigit(d[3])))
  }
  predicate DinersPrefix(d: string) {
    (|d| >= 3 && d[..2] == "30" && '0' <= d[2] <= '5') || StartsWith(d, "36") || StartsWith(d, "38")
  }

  /** `getCardType`: the regular-expression tests in the order the source makes
      them, on the digits of the input. */
  function GetCardType(number: string): (r: CardType)
    ensures VisaPrefix(DigitsOf(number)) ==> r == Visa
    ensures r == Unknown ==> !VisaPrefix(DigitsOf(number)) && !MasterCardPrefix(DigitsOf(number))
  {
    var d := DigitsOf(number);
    if VisaPrefix(d) then Visa
    else if MasterCardPrefix(d) then MasterCard
    else if AmexPrefix(d) then AmericanExpress
    else if DiscoverPrefix(d) then Discover
    else if JcbPrefix(d) then JCB
    else if DinersPrefix(d) then DinersClub
    else Unknown
  }

  /** The family a brand stands for. */
  predicate InFamily(d: string, t: CardType) {
    match t
    case Visa => VisaPrefix(d)
    case MasterCard => MasterCardPrefix(d)
    case AmericanExpress => AmexPrefix(d)
    case Discover => DiscoverPrefix(d)
    case JCB => JcbPrefix(d)
    case DinersClub => DinersPrefix(d)
    case Unknown => false
  }

  /** The families are pairwise disjoint, so the order of the tests does not
      matter: a number gets a brand exactly when its digits are in that
      brand's family. */
  lemma FamiliesDisjoint(number: string, t: CardType)
    requires t != Unknown
    ensures GetCardType(number) == t <==> InFamily(DigitsOf(number), t)
  {
    PrefixFacts(DigitsOf(number));
  }

  /** "Unknown" exactly when the digits are in no family. */
  lemma UnknownIffNoFamily(number: string)
    ensures GetCardType(number) == Unknown <==>
              && !InFamily(DigitsOf(number), Visa) && !InFamily(DigitsOf(number), MasterCard)
              && !InFamily(DigitsOf(number), AmericanExpress) && !InFamily(DigitsOf(number), Discover)
              && !InFamily(DigitsOf(number), JCB) && !InFamily(DigitsOf(number), DinersClub)
  {
  }

  /** The literal prefixes spelled out character by character. */
  lemma PrefixFacts(d: string)
    ensures StartsWith(d, "4") <==> |d| >= 1 && d[0] == '4'
    ensures StartsWith(d, "34") <==> |d| >= 2 && d[0] == '3' && d[1] == '4'
    ensures StartsWith(d, "37") <==> |d| >= 2 && d[0] == '3' && d[1] == '7'
    ensures StartsWith(d, "36") <==> |d| >= 2 && d[0] == '3' && d[1] == '6'
    ensures StartsWith(d, "38") <==> |d| >= 2 && d[0] == '3' && d[1] == '8'
    ensures StartsWith(d, "65") <==> |d| >= 2 && d[0] == '6' && d[1] == '5'
    ensures StartsWith(d, "6011") <==> |d| >= 4 && d[0] == '6' && d[1] == '0' && d[2] == '1' && d[3] == '1'
    ensures |d| >= 2 ==> (d[..2] == "35" <==> d[0] == '3' && d[1] == '5')
    ensures |d| >= 2 ==> (d[..2] == "30" <==> d[0] == '3' && d[1] == '0')
  {
    if |d| >= 2 {
      assert d[..2] == [d[0], d[1]];
    }
    if |d| >= 4 {
      assert d[..4] == [d[0], d[1], d[2], d[3]];
    }
    if |d| >= 1 {
      assert d[..1] == [d[0]];
    }
  }

  /** The empty number, and a number with no digits, is "Unknown". */
  lemma NoDigitsUnknown(number: string)
    requires forall i :: 0 <= i < |number| ==> !IsDigit(number[i])
    ensures GetCardType(number) == Unknown
  {
    NoDigitsEmpty(number);
  }

  lemma {:induction false} NoDigitsEmpty(s: string)
    requires forall i :: 0 <= i < |s| ==> !IsDigit(s[i])
    ensures DigitsOf(s) == []
  {
    if s != [] {
      NoDigitsEmpty(s[1..]);
    }
  }

  /** Classification looks only at the digits. */
  lemma TypeOfDigits(number: string)
    ensures GetCardType(number) == GetCardType(DigitsOf(number))
  {
  }

  /** Every family is decided by at most the first four digits: once four
      digits are typed, typing more never changes the brand. */
  lemma TypeStableAfterFour(d: string, more: string)
    requires AllDigits(d) && AllDigits(more) && |d| >= 4
    ensures GetCardType(d + more) == GetCardType(d)
  {
    var e := d + more;
    assert AllDigits(e);
    assert e[..4] == d[..4];
    assert e[..2] == d[..2];
    assert e[0] == d[0] && e[1] == d[1] && e[2] == d[2] && e[3] == d[3];
    assert StartsWith(e, "4") <==> StartsWith(d, "4");
    assert StartsWith(e, "34") <==> StartsWith(d, "34");
    assert StartsWith(e, "37") <==> StartsWith(d, "37");
    assert StartsWith(e, "36") <==> StartsWith(d, "36");
    assert StartsWith(e, "38") <==> StartsWith(d, "38");
    assert StartsWith(e, "65") <==> StartsWith(d, "65");
    assert StartsWith(e, "6011") <==> StartsWith(d, "6011");
  }

  // ---------------------------------------------------------------------------
  // The card form
  // ---------------------------------------------------------------------------

  datatype Field = CardNumber | ExpirationDate | Cvv | FirstName | LastName

  datatype CardForm = CardForm(cardNumber: string, expirationDate: string, cvv: string,
                               firstName: string, lastName: string)

  const EmptyForm: CardForm := CardForm("", "", "", "", "")

  function Get(form: CardForm, f: Field): string {
    match f
    case CardNumber => form.cardNumber
    case ExpirationDate => form.expirationDate
    case Cvv => form.cvv
    case FirstName => form.firstName
    case LastName => form.lastName
  }

  /** `handleInputChange(name, value)`: the card number keeps only its digits;
      the other fields take the text as typed. Only the named field changes. */
  function InputChange(form: CardForm, f: Field, value: string): (r: CardForm)
    ensures f == CardNumber ==> Get(r, f) == DigitsOf(value)
    ensures f != CardNumber ==> Get(r, f) == value
    ensures forall g :: g != f ==> Get(r, g) == Get(form, g)
    ensures AllDigits(r.cardNumber) <== AllDigits(form.cardNumber)
  {
    match f
    case CardNumber => form.(cardNumber := DigitsOf(value))
    case ExpirationDate => form.(expirationDate := value)
    case Cvv => form.(cvv := value)
    case FirstName => form.(firstName := value)
    case LastName => form.(lastName := value)
  }

  /** `cardNumber.slice(-4)`: the last four characters, or all of them when
      there are fewer. */
  function Last4(number: string): (r: string)
    ensures |r| == if |number| < 4 then |number| else 4
    ensures number == number[..|number| - |r|] + r
  {
    if |number| < 4 then number else number[|number| - 4..]
  }

  /** The row `handleSaveChanges` inserts (the hashed number is left out). */
  datatype PaymentRow = PaymentRow(userId: string, cardType: string, cardLast4: string,
                                   expirationDate: string, cardholderName: string)

  datatype SaveOutcome = NotLoggedIn | SaveFailed | Saved(row: PaymentRow)

  /** `handleSaveChanges`: with no signed-in user nothing is written; otherwise
      one row is inserted and, on success, the form is cleared. Returns the
      outcome and the form afterwards. */
  function SaveCard(form: CardForm, user: Option<string>, insertFails: bool): (r: (SaveOutcome, CardForm))
    ensures user.None? ==> r == (NotLoggedIn, form)
    ensures user.Some? && insertFails ==> r == (SaveFailed, form)
    ensures user.Some? && !insertFails ==> r.0.Saved?
    ensures r.0.Saved? ==> r.1 == EmptyForm && user.Some? && r.0.row.userId == user.value
    ensures r.0.Saved? ==> r.0.row.cardType == Label(GetCardType(form.cardNumber))
    ensures r.0.Saved? ==> r.0.row.cardLast4 == Last4(form.cardNumber)
    ensures r.0.Saved? ==> r.0.row.expirationDate == form.expirationDate
    ensures r.0.Saved? ==> r.0.row.cardholderName == form.firstName + " " + form.lastName
  {
    match user
    case None => (NotLoggedIn, form)
    case Some(uid) =>
      if insertFails then (SaveFailed, form)
      else
        var row := PaymentRow(uid, Label(GetCardType(form.cardNumber)), Last4(form.cardNumber),
                              form.expirationDate, form.firstName + " " + form.lastName);
        (Saved(row), EmptyForm)
  }

  /** A card typed through the form is saved with at most four digits as its
      last four, which end the number typed, and with the type of those
      digits. */
  lemma SavedFromTypedNumber(typed: string, other: CardForm, uid: string)
    ensures var form := InputChange(other, CardNumber, typed);
            var row := SaveCard(form, Some(uid), false).0.row;
            && AllDigits(row.cardLast4) && |row.cardLast4| <= 4
            && (exists pre :: DigitsOf(typed) == pre + row.cardLast4)
            && row.cardType == Label(GetCardType(typed))
  {
    var d := DigitsOf(typed);
    var last := Last4(d);
    assert d == d[..|d| - |last|] + last;
    assert forall k :: 0 <= k < |last| ==> last[k] == d[|d| - |last| + k];
    TypeOfDigits(typed);
  }

  // ---------------------------------------------------------------------------
  // Delete
  // ---------------------------------------------------------------------------

  datatype SavedCard = SavedCard(id: string, cardType: string, cardLast4: string)

  /** `prev.filter(p => p.id !== id)`. */
  function WithoutId(cards: seq<SavedCard>, id: string): (r: seq<SavedCard>)
    ensures |r| <= |cards|
    ensures forall k :: 0 <= k < |r| ==> r[k].id != id
    ensures forall c :: c in r <==> c in cards && c.id != id
  {
    if cards == [] then []
    else (if cards[0].id != id then [cards[0]] else []) + WithoutId(cards[1..], id)
  }

  /** `handleDeleteCard(id)`: on success the cards with that id are removed;
      on failure the list is kept. */
  function DeleteCard(cards: seq<SavedCard>, id: string, deleteFails: bool): (r: seq<SavedCard>)
    ensures deleteFails ==> r == cards
    ensures !deleteFails ==> forall c :: c in r <==> c in cards && c.id != id
  {
    if deleteFails then cards else WithoutId(cards, id)
  }

  /** The remaining cards keep their order, and exactly the cards with the
      deleted id are gone. */
  lemma {:induction false} DeleteKeepsOrder(cards: seq<SavedCard>, id: string)
    ensures IsSubsequence(WithoutId(cards, id), cards)
    ensures |WithoutId(cards, id)| == |cards| - CountId(cards, id)
  {
    if cards != [] {
      var rest := WithoutId(cards[1..], id);
      DeleteKeepsOrder(cards[1..], id);
      if cards[0].id != id {
        assert WithoutId(cards, id) == [cards[0]] + rest;
        assert ([cards[0]] + rest)[1..] == rest;
      } else {
        assert WithoutId(cards, id) == rest;
        if rest != [] {
          assert rest[0] in rest;
          assert rest[0] != cards[0];
        }
      }
    }
  }

  function CountId(cards: seq<SavedCard>, id: string): nat {
    if cards == [] then 0 else (if cards[0].id == id then 1 else 0) + CountId(cards[1..], id)
  }

  /** Deleting twice is deleting once. */
  lemma DeleteIdempotent(cards: seq<SavedCard>, id: string)
    ensures WithoutId(WithoutId(cards, id), id) == WithoutId(cards, id)
  {
    NoneToDelete(WithoutId(cards, id), id);
  }

  lemma {:induction false} NoneToDelete(cards: seq<SavedCard>, id: string)
    requires forall k :: 0 <= k < |cards| ==> cards[k].id != id
    ensures WithoutId(cards, id) == cards
  {
    if cards != [] {
      NoneToDelete(cards[1..], id);
    }
  }
}

=== FILE: pickup_time.dfy ===
/** The pickup-time picker (app/PickUpTime.tsx): the seven day options, the
    fixed slot table, the 12-hour to 24-hour conversion, the "+30 minutes"
    end label, and the confirmation that stores the choice. */
module PickUpTime {

  import opened Options
  import opened Text

  // ---------------------------------------------------------------------------
  // Day options
  // ---------------------------------------------------------------------------

  /** `toLocaleDateString("en-US", { weekday: "long" })`, indexed by
      `Date.getDay()`. */
  const WeekdayNames: seq<string> :=
    ["Sunday", "Monday", "Tuesday", "Wednesday", "Thursday", "Friday", "Saturday"]

  const TodayLabel: string := "Today"

  /** One pill of the date selector; `daysAhead` is the number of days after
      today (the calendar date itself is left out). */
  datatype DayOption = DayOption(title: string, daysAhead: nat)

  /** The weekday `i` days after weekday `w` (`Date.getDay()` numbering),
      wrapping around the end of the week. */
  function WeekdayAfter(w: nat, i: nat): (r: nat)
    requires w < 7 && i < 7
    ensures r < 7
    ensures r == (w + i) % 7
  {
    if w + i < 7 then w + i else w + i - 7
  }

  /** Distinct offsets within a week land on distinct weekdays. */
  lemma WeekdayAfterInjective(w: nat, i: nat, j: nat)
    requires w < 7 && i < 7 && j < 7
    ensures WeekdayAfter(w, i) == WeekdayAfter(w, j) <==> i == j
  {
  }

  /** `dayOptions`: today and the six days after it. The first is labelled
      "Today", the others by their weekday name. `todayWeekday` is today's
      `getDay()`. */
  function DayOptions(todayWeekday: nat): (r: seq<DayOption>)
    requires todayWeekday < 7
    ensures |r| == 7
    ensures r[0].title == TodayLabel
    ensures forall i :: 0 <= i < 7 ==> r[i].daysAhead == i
    ensures forall i :: 1 <= i < 7 ==> r[i].title == WeekdayNames[WeekdayAfter(todayWeekday, i)]
  {
    seq(7, i requires 0 <= i < 7 =>
      DayOption(if i == 0 then TodayLabel else WeekdayNames[WeekdayAfter(todayWeekday, i)], i))
  }

  /** The seven labels are distinct, so the selector, which compares days by
      label, marks exactly one pill as selected. */
  lemma DayLabelsDistinct(todayWeekday: nat, i: nat, j: nat)
    requires todayWeekday < 7
    requires i < j < 7
    ensures DayOptions(todayWeekday)[i].title != DayOptions(todayWeekday)[j].title
  {
    var r := DayOptions(todayWeekday);
    var b := WeekdayAfter(todayWeekday, j);
    assert r[j].title == WeekdayNames[b];
    if i == 0 {
      TodayIsNoWeekday(b);
    } else {
      var a := WeekdayAfter(todayWeekday, i);
      assert r[i].title == WeekdayNames[a];
      WeekdayAfterInjective(todayWeekday, i, j);
      if a < b { NamesDistinct(a, b); } else { NamesDistinct(b, a); }
    }
  }

  lemma TodayIsNoWeekday(k: nat)
    requires k < 7
    ensures WeekdayNames[k] != TodayLabel
  {
    WeekdayOfName(k);
    assert WeekdayOf(TodayLabel) == -1;
  }

  lemma NamesDistinct(x: nat, y: nat)
    requires x < y < 7
    ensures WeekdayNames[x] != WeekdayNames[y]
  {
    WeekdayOfName(x);
    WeekdayOfName(y);
  }

  /** A weekday name told apart by its first two letters. */
  function WeekdayOf(name: string): int {
    if |name| < 2 then -1
    else
      var c, d := name[0], name[1];
      if c == 'S' && d == 'u' then 0
      else if c == 'M' then 1
      else if c == 'T' && d == 'u' then 2
      else if c == 'W' then 3
      else if c == 'T' && d == 'h' then 4
      else if c == 'F' then 5
      else if c == 'S' && d == 'a' then 6
      else -1
  }

  lemma WeekdayOfName(k: nat)
    requires k < 7
    ensures WeekdayOf(WeekdayNames[k]) == k
  {
    if k == 0 { assert WeekdayNames[k] == "Sunday"; }
    else if k == 1 { assert WeekdayNames[k] == "Monday"; }
    else if k == 2 { assert WeekdayNames[k] == "Tuesday"; }
    else if k == 3 { assert WeekdayNames[k] == "Wednesday"; }
    else if k == 4 { assert WeekdayNames[k] == "Thursday"; }
    else if k == 5 { assert WeekdayNames[k] == "Friday"; }
    else { assert WeekdayNames[k] == "Saturday"; }
  }

  // ---------------------------------------------------------------------------
  // Times of day
  // ---------------------------------------------------------------------------

  datatype Period = AM | PM

  /** A time as the slot strings spell it: hour, minute and period. */
  datatype Slot = Slot(hour: nat, minute: nat, period: Period)

  predicate ValidSlot(s: Slot) {
    1 <= s.hour <= 12 && s.minute < 60
  }

  function PeriodText(p: Period): string {
    match p
    case AM => "AM"
    case PM => "PM"
  }

  /** `${h}:${m.toString().padStart(2, "0")} ${period}`. */
  function Render(s: Slot): string {
    NatToString(s.hour) + ":" + Pad2(s.minute) + " " + PeriodText(s.period)
  }

  /** The prefix before the first `c`, and the rest after it. */
  function SplitAt(s: string, c: char): (r: Option<(string, string)>)
    ensures r.Some? ==> s == r.value.0 + [c] + r.value.1 && c !in r.value.0
    ensures r.None? ==> c !in s
  {
    if s == [] then None
    else if s[0] == c then Some(([], s[1..]))
    else match SplitAt(s[1..], c)
      case None => None
      case Some(parts) => Some(([s[0]] + parts.0, parts.1))
  }

  lemma {:induction false} SplitAtFirst(a: string, c: char, b: string)
    requires c !in a
    ensures SplitAt(a + [c] + b, c) == Some((a, b))
  {
    if a != [] {
      assert (a + [c] + b)[1..] == a[1..] + [c] + b;
      SplitAtFirst(a[1..], c, b);
      assert [a[0]] + a[1..] == a;
    }
  }

  /** `text` spells `s` as "<digits>:<digits> <period>": the hour's and the
      minute's digits read as their numbers. */
  ghost predicate SpelledAs(text: string, s: Slot) {
    exists h: string, m: string ::
      && h != [] && m != [] && AllDigits(h) && AllDigits(m)
      && text == h + ":" + m + " " + PeriodText(s.period)
      && ParseDigits(h) == s.hour && ParseDigits(m) == s.minute
  }

  /** `start.split(" ")` then `time.split(":").map(Number)`, for strings of the
      shape "H:MM AM" or "H:MM PM" with decimal digits. */
  function Parse(text: string): (r: Option<Slot>)
    ensures r.Some? ==> SpelledAs(text, r.value)
  {
    match SplitAt(text, ' ')
    case None => None
    case Some(parts) =>
      match SplitAt(parts.0, ':')
      case None => None
      case Some(hm) =>
        if hm.0 != [] && hm.1 != [] && AllDigits(hm.0) && AllDigits(hm.1)
           && (parts.1 == "AM" || parts.1 == "PM")
        then
          var s := Slot(ParseDigits(hm.0), ParseDigits(hm.1), if parts.1 == "AM" then AM else PM);
          assert PeriodText(s.period) == parts.1;
          assert text == hm.0 + ":" + hm.1 + " " + PeriodText(s.period);
          Some(s)
        else None
  }

  /** Reading a rendered time gives the time back, so the structured slots
      below stand for the slot strings exactly. */
  lemma ParseRender(s: Slot)
    ensures Parse(Render(s)) == Some(s)
  {
    RenderSplitsAtSpace(s);
    ClockSplitsAtColon(s);
    ParseNatToString(s.hour);
    ParsePad2(s.minute);
    PeriodRoundTrip(s.period);
  }

  /** Conversely, every spelling of a time is read back as that time, with
      leading zeros allowed, as `Number` allows them. */
  lemma ParseSpelled(text: string, s: Slot)
    requires SpelledAs(text, s)
    ensures Parse(text) == Some(s)
  {
    var h: string, m: string :|
      && h != [] && m != [] && AllDigits(h) && AllDigits(m)
      && text == h + ":" + m + " " + PeriodText(s.period)
      && ParseDigits(h) == s.hour && ParseDigits(m) == s.minute;
    var hm := h + ":" + m;
    assert ' ' !in hm by {
      assert forall i :: 0 <= i < |hm| ==> IsDigit(hm[i]) || hm[i] == ':';
    }
    assert text == hm + [' '] + PeriodText(s.period);
    SplitAtFirst(hm, ' ', PeriodText(s.period));
    assert ':' !in h by {
      assert forall i :: 0 <= i < |h| ==> IsDigit(h[i]);
    }
    SplitAtFirst(h, ':', m);
    PeriodRoundTrip(s.period);
  }

  lemma PeriodRoundTrip(p: Period)
    ensures PeriodText(p) == "AM" || PeriodText(p) == "PM"
    ensures (if PeriodText(p) == "AM" then AM else PM) == p
  {
    assert "PM"[0] != "AM"[0];
  }

  lemma RenderSplitsAtSpace(s: Slot)
    ensures SplitAt(Render(s), ' ')
         == Some((NatToString(s.hour) + ":" + Pad2(s.minute), PeriodText(s.period)))
  {
    var hm := NatToString(s.hour) + ":" + Pad2(s.minute);
    assert ' ' !in hm by {
      assert forall i :: 0 <= i < |hm| ==> IsDigit(hm[i]) || hm[i] == ':';
    }
    assert Render(s) == hm + [' '] + PeriodText(s.period);
    SplitAtFirst(hm, ' ', PeriodText(s.period));
  }

  lemma ClockSplitsAtColon(s: Slot)
    ensures SplitAt(NatToString(s.hour) + ":" + Pad2(s.minute), ':')
         == Some((NatToString(s.hour), Pad2(s.minute)))
  {
    var h := NatToString(s.hour);
    assert ':' !in h by {
      assert forall i :: 0 <= i < |h| ==> IsDigit(h[i]);
    }
    SplitAtFirst(h, ':', Pad2(s.minute));
  }

  /** The slot table: morning, afternoon and evening. */
  const SlotStrings: seq<string> := [
    "9:00 AM", "9:30 AM", "10:00 AM", "10:30 AM",
    "12:00 PM", "12:30 PM", "1:00 PM", "1:30 PM",
    "5:00 PM", "5:30 PM", "6:00 PM", "6:30 PM"]

  const Slots: seq<Slot> := [
    Slot(9, 0, AM), Slot(9, 30, AM), Slot(10, 0, AM), Slot(10, 30, AM),
    Slot(12, 0, PM), Slot(12, 30, PM), Slot(1, 0, PM), Slot(1, 30, PM),
    Slot(5, 0, PM), Slot(5, 30, PM), Slot(6, 0, PM), Slot(6, 30, PM)]

  lemma Numerals()
    ensures NatToString(1) == "1" && NatToString(5) == "5" && NatToString(6) == "6"
    ensures NatToString(9) == "9" && NatToString(10) == "10" && NatToString(12) == "12"
    ensures Pad2(0) == "00" && Pad2(30) == "30"
  {
    assert NatToString(0) == "0" && NatToString(3) == "3";
    assert NatToString(30) == NatToString(3) + "0";
  }

  lemma RenderTableSlot(i: nat)
    requires i < 12
    ensures Render(Slots[i]) == SlotStrings[i]
  {
    if i < 4 {
      RenderMorning(i);
    } else if i < 8 {
      RenderAfternoon(i);
    } else {
      RenderEvening(i);
    }
  }

  lemma RenderMorning(i: nat)
    requires 0 <= i < 4
    ensures Render(Slots[i]) == SlotStrings[i]
  {
    Numerals();
    if i == 0 {
      assert Render(Slot(9, 0, AM)) == "9:00 AM";
    } else if i == 1 {
      assert Render(Slot(9, 30, AM)) == "9:30 AM";
    } else if i == 2 {
      assert Render(Slot(10, 0, AM)) == "10:00 AM";
    } else {
      assert Render(Slot(10, 30, AM)) == "10:30 AM";
    }
  }

  lemma RenderAfternoon(i: nat)
    requires 4 <= i < 8
    ensures Render(Slots[i]) == SlotStrings[i]
  {
    Numerals();
    if i == 4 {
      assert Render(Slot(12, 0, PM)) == "12:00 PM";
    } else if i == 5 {
      assert Render(Slot(12, 30, PM)) == "12:30 PM";
    } else if i == 6 {
      assert Render(Slot(1, 0, PM)) == "1:00 PM";
    } else {
      assert Render(Slot(1, 30, PM)) == "1:30 PM";
    }
  }

  lemma RenderEvening(i: nat)
    requires 8 <= i < 12
    ensures Render(Slots[i]) == SlotStrings[i]
  {
    Numerals();
    if i == 8 {
      assert Render(Slot(5, 0, PM)) == "5:00 PM";
    } else if i == 9 {
      assert Render(Slot(5, 30, PM)) == "5:30 PM";
    } else if i == 10 {
      assert Render(Slot(6, 0, PM)) == "6:00 PM";
    } else {
      assert Render(Slot(6, 30, PM)) == "6:30 PM";
    }
  }

  /** The structured table spells the table's strings, and its slots are
      valid 12-hour times. */
  lemma SlotsMatchTable()
    ensures |Slots| == |SlotStrings| == 12
    ensures forall i :: 0 <= i < 12 ==> Render(Slots[i]) == SlotStrings[i] && ValidSlot(Slots[i])
  {
    forall i | 0 <= i < 12 ensures Render(Slots[i]) == SlotStrings[i] {
      RenderTableSlot(i);
    }
  }

  /** The hour passed to `setHours` in `confirmSelection`. For a 12-hour clock
      hour it is the hour of the day with the same position on the dial, in
      the afternoon exactly when the period is PM. */
  function Hour24(h: nat, p: Period): (r: nat)
    ensures 1 <= h <= 12 ==> r < 24 && r % 12 == h % 12
    ensures 1 <= h <= 12 ==> (r >= 12 <==> p == PM)
  {
    match p
    case PM => if h != 12 then h + 12 else h
    case AM => if h == 12 then 0 else h
  }

  /** For 12-hour clock hours the conversion lands in 0..23 and is one to one. */
  lemma Hour24Range(h: nat, p: Period, h': nat, p': Period)
    requires 1 <= h <= 12 && 1 <= h' <= 12
    ensures Hour24(h, p) < 24
    ensures Hour24(h, p) == Hour24(h', p') ==> h == h' && p == p'
  {
  }

  function MinuteOfDay(s: Slot): nat {
    Hour24(s.hour, s.period) * 60 + s.minute
  }

  // ---------------------------------------------------------------------------
  // The end of the pickup window
  // ---------------------------------------------------------------------------

  /** `add30Mins` as written: after carrying the minutes, the period flips
      whenever the hour reads 12, whether or not the hour just changed. */
  function Add30MinsAsWritten(s: Slot): (r: Slot)
    ensures r.minute == (s.minute + 30) % 60 <== s.minute < 90
  {
    var m := s.minute + 30;
    var h := if m >= 60 then s.hour + 1 else s.hour;
    var m' := if m >= 60 then m - 60 else m;
    var p := if h == 12 then (if s.period == AM then PM else AM) else s.period;
    Slot(if h > 12 then h - 12 else h, m', p)
  }

  /** The counterexample: "12:00 PM" ends at "12:30 AM", half a day early,
      while "11:30 AM" correctly ends at "12:00 PM". */
  lemma NoonEndsAtMidnight()
    ensures Add30MinsAsWritten(Slot(11, 30, AM)) == Slot(12, 0, PM)
    ensures Add30MinsAsWritten(Slot(12, 0, PM)) == Slot(12, 30, AM)
    ensures Render(Add30MinsAsWritten(Slot(12, 0, PM))) == "12:30 AM"
    ensures MinuteOfDay(Add30MinsAsWritten(Slot(12, 0, PM))) != (MinuteOfDay(Slot(12, 0, PM)) + 30) % 1440
  {
    assert NatToString(12) == "12";
    assert NatToString(30) == "30";
    assert Pad2(30) == "30";
  }

  /** As written, the end is 30 minutes after the start except in the first
      half hour of twelve o'clock, AM or PM. */
  lemma AsWrittenCorrectOffTwelve(s: Slot)
    requires ValidSlot(s)
    ensures (s.hour == 12 && s.minute < 30) <==>
            MinuteOfDay(Add30MinsAsWritten(s)) != (MinuteOfDay(s) + 30) % 1440
  {
  }

  /** In the slot table only "12:00 PM" gets a wrong end. */
  lemma TableOnlyNoonWrong(i: nat)
    requires i < 12
    ensures i != 4 <==> MinuteOfDay(Add30MinsAsWritten(Slots[i])) == MinuteOfDay(Slots[i]) + 30
  {
    AsWrittenCorrectOffTwelve(Slots[i]);
  }

  /** `add30Mins` as evidently intended: the period flips only when the carry
      moves the hour from 11 to 12. */
  function Add30Mins(s: Slot): (r: Slot)
    requires ValidSlot(s)
    ensures ValidSlot(r)
    ensures MinuteOfDay(r) == (MinuteOfDay(s) + 30) % 1440
  {
    var m := s.minute + 30;
    var carry := m >= 60;
    var h := if carry then s.hour + 1 else s.hour;
    var p := if carry && h == 12 then (if s.period == AM then PM else AM) else s.period;
    Slot(if h > 12 then h - 12 else h, if carry then m - 60 else m, p)
  }

  /** The two agree everywhere outside twelve o'clock's first half hour. */
  lemma FixAgreesOffTwelve(s: Slot)
    requires ValidSlot(s) && !(s.hour == 12 && s.minute < 30)
    ensures Add30Mins(s) == Add30MinsAsWritten(s)
  {
  }

  // ---------------------------------------------------------------------------
  // Confirm
  // ---------------------------------------------------------------------------

  datatype Confirmation =
    | NoTimeSelected
    | Unreadable
    | Chosen(dayOffset: nat, hour: nat, minute: nat, caption: string)

  /** What `confirmSelection` writes: with no time chosen, nothing. Otherwise
      the day's date with the 24-hour time, and the label
      "<day>, <start> - <end>", the end computed by `add30Mins` as written
      (so "12:00 PM" gets the end "12:30 AM"). */
  function Confirm(day: DayOption, selected: Option<string>): (r: Confirmation)
    ensures selected.None? || selected.value == "" ==> r == NoTimeSelected
    ensures r.Chosen? ==>
              && selected.Some? && Parse(selected.value).Some?
              && var s := Parse(selected.value).value;
              && ValidSlot(s)
              && r.dayOffset == day.daysAhead
              && r.hour == Hour24(s.hour, s.period) && r.minute == s.minute
              && r.caption == day.title + ", " + selected.value + " - " + Render(Add30MinsAsWritten(s))
  {
    if selected.None? || selected.value == "" then NoTimeSelected
    else match Parse(selected.value)
      case None => Unreadable
      case Some(s) =>
        if !ValidSlot(s) then Unreadable
        else Chosen(day.daysAhead, Hour24(s.hour, s.period), s.minute,
                    day.title + ", " + selected.value + " - " + Render(Add30MinsAsWritten(s)))
  }

  /** Every slot of the table confirms to a time whose hour and minute are the
      slot's own time of day. */
  lemma ConfirmTableSlot(day: DayOption, i: nat)
    requires i < 12
    ensures Confirm(day, Some(SlotStrings[i])).Chosen?
    ensures Confirm(day, Some(SlotStrings[i])).hour * 60 + Confirm(day, Some(SlotStrings[i])).minute
            == MinuteOfDay(Slots[i])
  {
    SlotsMatchTable();
    ParseRender(Slots[i]);
  }

  /** Outside twelve o'clock's first half hour, the label ends exactly thirty
      minutes after its start. */
  lemma ConfirmEndOffTwelve(day: DayOption, text: string)
    requires Confirm(day, Some(text)).Chosen?
    requires Parse(text).Some? && !(Parse(text).value.hour == 12 && Parse(text).value.minute < 30)
    ensures Confirm(day, Some(text)).caption
            == day.title + ", " + text + " - " + Render(Add30Mins(Parse(text).value))
  {
    FixAgreesOffTwelve(Parse(text).value);
  }

  /** The label for the "12:00 PM" slot ends at "12:30 AM". */
  lemma ConfirmNoonCaption(day: DayOption)
    ensures Confirm(day, Some(SlotStrings[4])).Chosen?
    ensures Confirm(day, Some(SlotStrings[4])).caption == day.title + ", " + "12:00 PM" + " - " + "12:30 AM"
  {
    NoonParses();
    ConfirmTableSlot(day, 4);
    NoonEndsAtMidnight();
  }

  /** The noon entry of the table reads back as twelve o'clock PM. */
  lemma NoonParses()
    ensures SlotStrings[4] == "12:00 PM"
    ensures Parse(SlotStrings[4]) == Some(Slot(12, 0, PM))
  {
    RenderTableSlot(4);
    ParseRender(Slots[4]);
  }

  /** The pickup time as written under "selectedPickupTime". */
  datatype PickupTime = PickupTime(dayOffset: nat, hour: nat, minute: nat)

  /** The effect of `confirmSelection` on device storage and on the screen:
      each key is `Some` when it was written, and `leftScreen` when the
      success toast was shown and the app went to the cart. */
  datatype Saved = Saved(pickupTime: Option<PickupTime>, pickupLabel: Option<string>, leftScreen: bool)

  /** The two `setItem` calls of `confirmSelection`, which have no `try`: a
      rejected write ends the handler, so a rejected first write stores
      nothing, a rejected second write leaves the new time without its
      label, and only when both succeed are the toast and the navigation
      reached. */
  function Store(c: Confirmation, timeWriteFails: bool, labelWriteFails: bool): (r: Saved)
    ensures !c.Chosen? ==> r == Saved(None, None, false)
    ensures c.Chosen? ==> (r.pickupTime.Some? <==> !timeWriteFails)
    ensures r.pickupTime.Some? ==> r.pickupTime.value == PickupTime(c.dayOffset, c.hour, c.minute)
    ensures r.pickupLabel.Some? <==> c.Chosen? && !timeWriteFails && !labelWriteFails
    ensures r.pickupLabel.Some? ==> r.pickupLabel.value == c.caption
    ensures r.leftScreen <==> r.pickupLabel.Some?
  {
    if !c.Chosen? || timeWriteFails then Saved(None, None, false)
    else if labelWriteFails then Saved(Some(PickupTime(c.dayOffset, c.hour, c.minute)), None, false)
    else Saved(Some(PickupTime(c.dayOffset, c.hour, c.minute)), Some(c.caption), true)
  }

  /** A label is never written without the time it describes: whenever the
      label key is written, the time key holds the same choice's time, and
      a rejected label write after a successful time write leaves the new
      time paired with whatever label was stored before. */
  lemma LabelOnlyWithItsTime(day: DayOption, i: nat, timeWriteFails: bool, labelWriteFails: bool)
    requires i < 12
    ensures var r := Store(Confirm(day, Some(SlotStrings[i])), timeWriteFails, labelWriteFails);
            && (r.pickupLabel.Some? ==>
                  (r.pickupTime.Some?
                   && r.pickupTime.value.hour * 60 + r.pickupTime.value.minute == MinuteOfDay(Slots[i])))
            && (!timeWriteFails && labelWriteFails ==> r.pickupTime.Some? && r.pickupLabel.None? && !r.leftScreen)
  {
    ConfirmTableSlot(day, i);
  }
}

=== FILE: select_location.dfy ===
/** The store picker (app/SelectLocation.tsx): the search filter over the
    fetched locations, and the choice saved to device storage. */
module SelectLocation {

  import opened Options
  import opened Text
  import opened Seqs

  /** A `locations` row. */
  datatype Location = Location(id: string, name: string, address: string, city: string,
                               state: string, zipCode: string)

  /** What is written under "selectedLocation": only the id and the name. */
  datatype SavedLocation = SavedLocation(id: string, name: string)

  /** `fetchLocations`: on error the list stays as it was; otherwise it is the
      returned rows, or empty when none came back. */
  function FetchLocations(current: seq<Location>, error: bool, data: Option<seq<Location>>)
    : (r: seq<Location>)
    ensures error ==> r == current
    ensures !error && data.None? ==> r == []
    ensures !error && data.Some? ==> r == data.value
  {
    if error then current else data.GetOr([])
  }

  // ---------------------------------------------------------------------------
  // Search
  // ---------------------------------------------------------------------------

  /** `[name, address, city].join(" ")`. */
  function SearchText(l: Location): string {
    l.name + " " + l.address + " " + l.city
  }

  /** The case-insensitive substring test applied to each location. */
  predicate Matches(l: Location, query: string) {
    Contains(Lower(SearchText(l)), Lower(query))
  }

  /** `filteredLocations`: all locations for an empty query, otherwise those
      whose joined name, address and city contain the query, ignoring case.
      The query is not trimmed. */
  function Filter(locs: seq<Location>, query: string): (r: seq<Location>)
    ensures |r| <= |locs|
    ensures query == "" ==> r == locs
    ensures forall l :: l in r <==> l in locs && (query == "" || Matches(l, query))
  {
    if query == "" then locs
    else if locs == [] then []
    else (if Matches(locs[0], query) then [locs[0]] else []) + Filter(locs[1..], query)
  }

  /** The filter keeps the fetched order. */
  lemma {:induction false} FilterKeepsOrder(locs: seq<Location>, query: string)
    ensures IsSubsequence(Filter(locs, query), locs)
  {
    if query == "" {
      SubsequenceRefl(locs);
    } else if locs != [] {
      var rest := Filter(locs[1..], query);
      FilterKeepsOrder(locs[1..], query);
      if Matches(locs[0], query) {
        var r := [locs[0]] + rest;
        assert r == Filter(locs, query);
        assert r[0] == locs[0] && r[1..] == rest;
        assert IsSubsequence(r, locs);
      } else {
        assert Filter(locs, query) == rest;
        if rest != [] {
          assert rest[0] in rest;
          assert Matches(rest[0], query);
          assert rest[0] != locs[0];
        }
      }
    }
  }

  /** Typing more narrows the list: every location kept for a query is kept
      for any query the first one contains, in particular for its prefixes. */
  lemma FilterNarrows(locs: seq<Location>, longer: string, shorter: string, l: Location)
    requires Contains(longer, shorter)
    requires l in Filter(locs, longer)
    ensures l in Filter(locs, shorter)
  {
    if shorter != "" {
      assert longer != "";
      LowerContains(longer, shorter);
      ContainsTransitive(Lower(SearchText(l)), Lower(longer), Lower(shorter));
    }
  }

  lemma LowerAppend(a: string, b: string)
    ensures Lower(a + b) == Lower(a) + Lower(b)
  {
  }

  /** A query found in the name, ignoring case, keeps the location. */
  lemma NameMatchKept(locs: seq<Location>, query: string, l: Location)
    requires l in locs && Contains(Lower(l.name), Lower(query))
    ensures l in Filter(locs, query)
  {
    var rest := " " + l.address + " " + l.city;
    assert SearchText(l) == l.name + rest;
    LowerAppend(l.name, rest);
    assert StartsWith(Lower(SearchText(l)), Lower(l.name));
    PrefixContains(Lower(SearchText(l)), Lower(l.name), Lower(query));
  }

  /** A query of one space matches every location, since the joined text
      always holds the separators. */
  lemma SpaceQueryKeepsAll(locs: seq<Location>)
    ensures Filter(locs, " ") == locs
  {
    forall l | l in locs ensures Matches(l, " ") {
      var t := Lower(SearchText(l));
      assert t[|l.name|] == ' ';
      assert Lower(" ") == " ";
      ContainsAt(t, " ", |l.name|);
    }
    FilterAll(locs, " ");
  }

  lemma {:induction false} FilterAll(locs: seq<Location>, query: string)
    requires forall l :: l in locs ==> Matches(l, query)
    ensures Filter(locs, query) == locs
  {
    if query != "" && locs != [] {
      FilterAll(locs[1..], query);
      assert [locs[0]] + locs[1..] == locs;
    }
  }

  // ---------------------------------------------------------------------------
  // Saving the choice
  // ---------------------------------------------------------------------------

  datatype SaveOutcome = NothingSaved | WriteFailed | Saved(location: SavedLocation)

  /** The first location with the given id (`Array.prototype.find`). */
  function FindById(locs: seq<Location>, id: string): (r: Option<Location>)
    ensures r.Some? <==> exists i :: 0 <= i < |locs| && locs[i].id == id
    ensures r.Some? ==> exists i :: 0 <= i < |locs| && locs[i] == r.value && r.value.id == id
                                    && forall j :: 0 <= j < i ==> locs[j].id != id
  {
    if locs == [] then None
    else if locs[0].id == id then Some(locs[0])
    else
      var r := FindById(locs[1..], id);
      FirstMatchShift(locs, id, r);
      r
  }

  lemma FirstMatchShift(locs: seq<Location>, id: string, r: Option<Location>)
    requires locs != [] && locs[0].id != id
    requires r.Some? <==> exists i :: 0 <= i < |locs[1..]| && locs[1..][i].id == id
    requires r.Some? ==> exists i :: 0 <= i < |locs[1..]| && locs[1..][i] == r.value && r.value.id == id
                                     && forall j :: 0 <= j < i ==> locs[1..][j].id != id
    ensures r.Some? <==> exists i :: 0 <= i < |locs| && locs[i].id == id
    ensures r.Some? ==> exists i :: 0 <= i < |locs| && locs[i] == r.value && r.value.id == id
                                    && forall j :: 0 <= j < i ==> locs[j].id != id
  {
    if r.Some? {
      var i :| 0 <= i < |locs[1..]| && locs[1..][i] == r.value && r.value.id == id
               && forall j :: 0 <= j < i ==> locs[1..][j].id != id;
      assert locs[i + 1] == r.value;
      assert forall j :: 1 <= j < i + 1 ==> locs[j] == locs[1..][j - 1];
    } else {
      assert forall i :: 1 <= i < |locs| ==> locs[i] == locs[1..][i - 1];
    }
  }

  /** `handleConfirmLocation`: with no (or an empty) selected id, or an id not
      in the list, nothing is written; otherwise the first location with that
      id is saved as its id and name. */
  function ConfirmLocation(locs: seq<Location>, selected: Option<string>, writeFails: bool)
    : (r: SaveOutcome)
    ensures selected.None? || selected.value == "" ==> r == NothingSaved
    ensures r == NothingSaved <==>
              selected.None? || selected.value == "" || FindById(locs, selected.value).None?
    ensures r.Saved? <==> r != NothingSaved && !writeFails
    ensures r.Saved? ==>
              var l := FindById(locs, selected.value).value;
              r.location == SavedLocation(l.id, l.name) && r.location.id == selected.value
  {
    if selected.None? || selected.value == "" then NothingSaved
    else match FindById(locs, selected.value)
      case None => NothingSaved
      case Some(l) => if writeFails then WriteFailed else Saved(SavedLocation(l.id, l.name))
  }

  const CurrentLocation: SavedLocation := SavedLocation("current", "Current Location")

  /** `handleUseCurrentLocation`: the fixed placeholder, never the device's
      coordinates. */
  function UseCurrentLocation(writeFails: bool): (r: SaveOutcome)
    ensures r != NothingSaved
    ensures r.Saved? <==> !writeFails
    ensures r.Saved? ==> r.location.id == "current" && r.location.name == "Current Location"
  {
    if writeFails then WriteFailed else Saved(CurrentLocation)
  }
}

=== FILE: seqs.dfy ===
/** Sequence facts shared by the list screens. */
module Seqs {

  /** `a` is `b` with some elements dropped, order kept. */
  predicate IsSubsequence<T(==)>(a: seq<T>, b: seq<T>)
    decreases |b|
  {
    if a == [] then true
    else if b == [] then false
    else if a[0] == b[0] then IsSubsequence(a[1..], b[1..])
    else IsSubsequence(a, b[1..])
  }

  lemma {:induction false} SubsequenceRefl<T>(a: seq<T>)
    ensures IsSubsequence(a, a)
    decreases |a|
  {
    if a != [] {
      SubsequenceRefl(a[1..]);
    }
  }
}

=== FILE: signup.dfy ===
/** Account creation (app/SignUp.tsx): field validation, then the sign-up
    call, an automatic sign-in when no session came back, and the `users`
    row insert. Each remote call's result is a parameter. */
module SignUp {

  import opened Options
  import opened Text
  import Login

  /** `auth.signUp`: an error with its message, or the new user's id (absent
      when no user came back) and whether a session was opened. */
  datatype SignUpResult = SignUpError(message: string) | SignedUp(userId: Option<string>, hasSession: bool)

  /** `auth.signInWithPassword`: an error, or the signed-in user's id (absent
      when no user came back). */
  datatype SignInResult = SignInError | SignedIn(userId: Option<string>)

  /** The `users` row inserted; timestamps are left out. An absent id is the
      `undefined` the screen sends when the sign-up returned a session but no
      user. No role is sent. */
  datatype UserRow = UserRow(id: Option<string>, email: string, name: string)

  /** The `auth.signUp` request: the credentials and the account metadata
      `options.data`, `full_name` and `role`. */
  datatype SignUpRequest = SignUpRequest(email: string, password: string, fullName: string, role: string)

  datatype Outcome = Rejected(message: string) | Created(row: UserRow, route: string)

  const MissingFields: string := "Please fill in all fields"
  const ShortPassword: string := "Password should be at least 6 characters long"
  const SignUpFailed: string := "Failed to create account"
  const AutoSignInFailed: string := "Auto sign-in failed. Please try logging in."
  const SaveFailed: string := "Failed to save user details"
  const Home: string := "(tabs)/index"
  const MinPasswordLength: nat := 6
  const MetadataRole: string := "customer"

  /** The checks made before any remote call; `None` when the form passes.
      Fields are not trimmed: an all-space field passes. */
  function Validate(name: string, email: string, password: string): (r: Option<string>)
    ensures r.None? <==> name != "" && email != "" && password != ""
                         && Utf16Length(password) >= MinPasswordLength
    ensures name == "" || email == "" || password == "" ==> r == Some(MissingFields)
    ensures (name != "" && email != "" && password != "" && Utf16Length(password) < MinPasswordLength)
              ==> r == Some(ShortPassword)
  {
    if name == "" || email == "" || password == "" then Some(MissingFields)
    else if Utf16Length(password) < MinPasswordLength then Some(ShortPassword)
    else None
  }

  /** The `auth.signUp` call of `handleSubmit`: made exactly when the form
      passes validation, with the name as `full_name` and the fixed role
      "customer", in lower case. */
  function Request(name: string, email: string, password: string): (r: Option<SignUpRequest>)
    ensures r.Some? <==> Validate(name, email, password).None?
    ensures r.Some? ==> r.value.email == email && r.value.password == password && r.value.fullName == name
    ensures r.Some? ==> r.value.role == MetadataRole
  {
    if Validate(name, email, password).Some? then None
    else Some(SignUpRequest(email, password, name, MetadataRole))
  }

  /** The role sent as account metadata is not one the login screen accepts:
      were it the role a user signs in with, the login would stop at
      "Invalid role". */
  lemma MetadataRoleRejectedAtLogin(name: string, email: string, password: string)
    requires Request(name, email, password).Some?
    ensures Login.Dispatch(Request(name, email, password).value.role) == Login.Rejected(Login.InvalidRole)
  {
    assert MetadataRole[0] != Login.Customer[0] && MetadataRole[0] != Login.Employee[0];
  }

  /** `handleSubmit`. */
  function Submit(name: string, email: string, password: string,
                  signUp: SignUpResult, signIn: SignInResult, insertFails: bool): (r: Outcome)
    ensures Validate(name, email, password).Some? ==> r == Rejected(Validate(name, email, password).value)
    ensures Validate(name, email, password).None? && signUp.SignUpError? ==>
              r == Rejected(if signUp.message == "" then SignUpFailed else signUp.message)
    ensures r.Created? ==>
              && Validate(name, email, password).None?
              && signUp.SignedUp? && !insertFails
              && (signUp.hasSession || signIn.SignedIn?)
              && r.route == Home
              && r.row.email == email && r.row.name == name
              && r.row.id == (if signUp.hasSession then signUp.userId else signIn.userId)
    ensures (Validate(name, email, password).None? && signUp.SignedUp? && !signUp.hasSession
             && (signIn.SignInError? || signIn.userId.None?)) ==> r == Rejected(AutoSignInFailed)
    ensures (Validate(name, email, password).None? && signUp.SignedUp?
             && (signUp.hasSession || (signIn.SignedIn? && signIn.userId.Some?))) ==>
              r == if insertFails then Rejected(SaveFailed)
                   else Created(UserRow(if signUp.hasSession then signUp.userId else signIn.userId,
                                        email, name), Home)
  {
    match Validate(name, email, password)
    case Some(message) => Rejected(message)
    case None =>
      match signUp
      case SignUpError(message) => Rejected(if message == "" then SignUpFailed else message)
      case SignedUp(userId, hasSession) =>
        if !hasSession && (signIn.SignInError? || signIn.userId.None?) then Rejected(AutoSignInFailed)
        else
          var id := if hasSession then userId else signIn.userId;
          if insertFails then Rejected(SaveFailed)
          else Created(UserRow(id, email, name), Home)
  }

  /** A form that fails validation makes no remote call: the outcome does not
      depend on any remote result. */
  lemma InvalidFormIgnoresServer(name: string, email: string, password: string,
                                 s1: SignUpResult, i1: SignInResult, f1: bool,
                                 s2: SignUpResult, i2: SignInResult, f2: bool)
    requires Validate(name, email, password).Some?
    ensures Submit(name, email, password, s1, i1, f1) == Submit(name, email, password, s2, i2, f2)
    ensures Submit(name, email, password, s1, i1, f1).Rejected?
  {
  }

  /** The length is counted in UTF-16 units: three characters outside the
      Basic Multilingual Plane make a long enough password. */
  lemma AstralPasswordLongEnough()
    ensures Validate("a", "b", "\U{1F600}\U{1F600}\U{1F600}").None?
  {
    var p := "\U{1F600}\U{1F600}\U{1F600}";
    assert p[1..][1..] == "\U{1F600}";
    assert Utf16Length(p) == 6;
  }

  /** With a session, the sign-in result is never consulted. */
  lemma SessionSkipsSignIn(name: string, email: string, password: string, userId: Option<string>,
                           i1: SignInResult, i2: SignInResult, insertFails: bool)
    ensures Submit(name, email, password, SignedUp(userId, true), i1, insertFails)
         == Submit(name, email, password, SignedUp(userId, true), i2, insertFails)
  {
  }
}

=== FILE: text.dfy ===
/** String helpers standing in for the JavaScript string built-ins the screens
    call: `replace(/\D/g, "")`, `replace(/-/g, "")`, `trim()`,
    `toLowerCase()`, `includes`, `Number(...)`, `toString()` and
    `padStart(2, "0")` and `length`. Strings are `seq<char>`. */
module Text {

  import opened Options

  // ---------------------------------------------------------------------------
  // Digits
  // ---------------------------------------------------------------------------

  /** JavaScript's `\d`: the ASCII digits only. */
  predicate IsDigit(c: char) {
    '0' <= c <= '9'
  }

  predicate AllDigits(s: string) {
    forall i :: 0 <= i < |s| ==> IsDigit(s[i])
  }

  /** `s.replace(/\D/g, "")`: keep the digits, in order. */
  function DigitsOf(s: string): (r: string)
    ensures AllDigits(r)
    ensures |r| <= |s|
    ensures AllDigits(s) ==> r == s
  {
    if s == [] then []
    else (if IsDigit(s[0]) then [s[0]] else []) + DigitsOf(s[1..])
  }

  /** Digit filtering distributes over concatenation. */
  lemma {:induction false} DigitsOfAppend(a: string, b: string)
    ensures DigitsOf(a + b) == DigitsOf(a) + DigitsOf(b)
  {
    if a == [] {
      assert a + b == b;
    } else {
      var ab := a + b;
      var head := if IsDigit(a[0]) then [a[0]] else [];
      assert ab[0] == a[0];
      assert ab[1..] == a[1..] + b;
      DigitsOfAppend(a[1..], b);
      assert DigitsOf(ab) == head + (DigitsOf(a[1..]) + DigitsOf(b));
      assert DigitsOf(a) == head + DigitsOf(a[1..]);
    }
  }

  /** Filtering a second time changes nothing. */
  lemma DigitsOfIdempotent(s: string)
    ensures DigitsOf(DigitsOf(s)) == DigitsOf(s)
  {
  }

  // ---------------------------------------------------------------------------
  // Removing one character
  // ---------------------------------------------------------------------------

  /** `s.replace(/c/g, "")` for a single literal character `c`. */
  function RemoveChar(s: string, c: char): (r: string)
    ensures forall i :: 0 <= i < |r| ==> r[i] != c
    ensures |r| <= |s|
    ensures (forall i :: 0 <= i < |s| ==> s[i] != c) ==> r == s
    ensures |s| == 1 ==> r == (if s[0] == c then [] else s)
  {
    if s == [] then []
    else (if s[0] == c then [] else [s[0]]) + RemoveChar(s[1..], c)
  }

  /** Removal works character by character: it distributes over
      concatenation, so with the one-character case it keeps every other
      character, in order. */
  lemma {:induction false} RemoveCharAppend(a: string, b: string, c: char)
    ensures RemoveChar(a + b, c) == RemoveChar(a, c) + RemoveChar(b, c)
  {
    if a == [] {
      assert a + b == b;
    } else {
      var ab := a + b;
      var head := if a[0] == c then [] else [a[0]];
      assert ab[0] == a[0];
      assert ab[1..] == a[1..] + b;
      RemoveCharAppend(a[1..], b, c);
      assert RemoveChar(ab, c) == head + (RemoveChar(a[1..], c) + RemoveChar(b, c));
      assert RemoveChar(a, c) == head + RemoveChar(a[1..], c);
    }
  }

  // ---------------------------------------------------------------------------
  // trim()
  // ---------------------------------------------------------------------------

  /** The characters `String.prototype.trim` strips: the ECMAScript WhiteSpace
      and LineTerminator code points. */
  predicate IsWhite(c: char) {
    var n := c as int;
    n == 0x09 || n == 0x0A || n == 0x0B || n == 0x0C || n == 0x0D || n == 0x20
    || n == 0xA0 || n == 0x1680 || (0x2000 <= n <= 0x200A)
    || n == 0x2028 || n == 0x2029 || n == 0x202F || n == 0x205F
    || n == 0x3000 || n == 0xFEFF
  }

  function TrimStart(s: string): (r: string)
    ensures |r| <= |s| && r == s[|s| - |r|..]
    ensures r == [] || !IsWhite(r[0])
    ensures forall k :: 0 <= k < |s| - |r| ==> IsWhite(s[k])
  {
    if s != [] && IsWhite(s[0]) then TrimStart(s[1..]) else s
  }

  function TrimEnd(s: string): (r: string)
    ensures |r| <= |s| && r == s[..|r|]
    ensures r == [] || !IsWhite(r[|r| - 1])
    ensures forall k :: |r| <= k < |s| ==> IsWhite(s[k])
  {
    if s != [] && IsWhite(s[|s| - 1]) then TrimEnd(s[..|s| - 1]) else s
  }

  /** `s[i..i + |r|]` is `r`, and everything around it is white space. */
  predicate StrippedAt(s: string, r: string, i: nat) {
    && i + |r| <= |s| && s[i..i + |r|] == r
    && (forall k :: 0 <= k < i ==> IsWhite(s[k]))
    && (forall k :: i + |r| <= k < |s| ==> IsWhite(s[k]))
  }

  /** `s.trim()`: a contiguous slice of `s` with no white space at either end,
      obtained by dropping only white space. */
  function Trim(s: string): (r: string)
    ensures |r| <= |s|
    ensures Contains(s, r)
    ensures r == [] || (!IsWhite(r[0]) && !IsWhite(r[|r| - 1]))
    ensures (s == [] || (!IsWhite(s[0]) && !IsWhite(s[|s| - 1]))) ==> r == s
    ensures StrippedAt(s, r, |s| - |TrimStart(s)|)
  {
    TrimIsSlice(s);
    TrimDropsWhite(s);
    TrimEnd(TrimStart(s))
  }

  /** Trimming both ends leaves a slice of the original. */
  lemma TrimIsSlice(s: string)
    ensures Contains(s, TrimEnd(TrimStart(s)))
  {
    var t := TrimStart(s);
    var r := TrimEnd(t);
    var k := |s| - |t|;
    assert r == t[..|r|];
    assert t == s[k..];
    assert r == s[k..k + |r|];
    ContainsAt(s, r, k);
  }

  /** What trimming drops, at either end, is white space. */
  lemma TrimDropsWhite(s: string)
    ensures StrippedAt(s, TrimEnd(TrimStart(s)), |s| - |TrimStart(s)|)
  {
    var t := TrimStart(s);
    var k := |s| - |t|;
    TrimEndTail(s, t, k);
    assert StrippedAt(s, TrimEnd(t), k);
  }

  /** `TrimEnd` of the tail `s[k..]` is a slice of `s` starting at `k`, and
      what it drops is white space in `s`. */
  lemma TrimEndTail(s: string, t: string, k: nat)
    requires k <= |s| && t == s[k..]
    ensures k + |TrimEnd(t)| <= |s| && s[k..k + |TrimEnd(t)|] == TrimEnd(t)
    ensures forall j :: k + |TrimEnd(t)| <= j < |s| ==> IsWhite(s[j])
  {
    var r := TrimEnd(t);
    assert r == t[..|r|];
    forall j | k + |r| <= j < |s| ensures IsWhite(s[j]) {
      assert s[j] == t[j - k];
    }
  }

  /** The result of trimming is determined by its position: any slice of `s`
      that is surrounded by white space and has no white space at its ends is
      the trimmed string. */
  lemma TrimUnique(s: string, r: string, i: nat)
    requires StrippedAt(s, r, i)
    requires r == [] || (!IsWhite(r[0]) && !IsWhite(r[|r| - 1]))
    ensures r == Trim(s)
  {
    var t := Trim(s);
    var j := |s| - |TrimStart(s)|;
    assert StrippedAt(s, t, j);
    if r != [] && t != [] {
      assert s[i] == r[0] && s[j] == t[0];
      assert i == j;
      assert s[i + |r| - 1] == r[|r| - 1] && s[j + |t| - 1] == t[|t| - 1];
      assert |r| == |t|;
    }
  }

  // ---------------------------------------------------------------------------
  // toLowerCase() and includes()
  // ---------------------------------------------------------------------------

  /** Lower-casing of one character; only the ASCII letters are mapped. */
  function LowerChar(c: char): (r: char)
    ensures 'A' <= c <= 'Z' ==> 'a' <= r <= 'z' && r as int == c as int + 32
    ensures !('A' <= c <= 'Z') ==> r == c
  {
    if 'A' <= c <= 'Z' then (c as int - 'A' as int + 'a' as int) as char else c
  }

  /** `s.toLowerCase()`, character by character. */
  function Lower(s: string): (r: string)
    ensures |r| == |s|
    ensures forall i :: 0 <= i < |s| ==> r[i] == LowerChar(s[i])
  {
    seq(|s|, i requires 0 <= i < |s| => LowerChar(s[i]))
  }

  predicate StartsWith(s: string, prefix: string) {
    |prefix| <= |s| && s[..|prefix|] == prefix
  }

  /** `hay.includes(needle)`: `needle` occurs in `hay` at some offset. */
  predicate Contains(hay: string, needle: string)
    decreases |hay|
  {
    StartsWith(hay, needle) || (hay != [] && Contains(hay[1..], needle))
  }

  /** The recursive `Contains` agrees with "occurs at some offset". */
  lemma {:induction false} ContainsAt(hay: string, needle: string, k: nat)
    requires k + |needle| <= |hay| && hay[k..k + |needle|] == needle
    ensures Contains(hay, needle)
    decreases k
  {
    if k == 0 {
      assert StartsWith(hay, needle);
    } else {
      assert hay[1..][k - 1..k - 1 + |needle|] == hay[k..k + |needle|];
      ContainsAt(hay[1..], needle, k - 1);
    }
  }

  /** A prefix of a prefix is a prefix. */
  lemma {:induction false} PrefixContains(h: string, m: string, n: string)
    requires StartsWith(h, m) && Contains(m, n)
    ensures Contains(h, n)
    decreases |m|
  {
    if StartsWith(m, n) {
      assert h[..|n|] == m[..|m|][..|n|];
      assert StartsWith(h, n);
    } else {
      assert m != [] && Contains(m[1..], n);
      assert h[1..][..|m| - 1] == m[1..];
      PrefixContains(h[1..], m[1..], n);
    }
  }

  /** Substring is transitive: if `m` occurs in `h` and `n` in `m`, then `n`
      occurs in `h`. */
  lemma {:induction false} ContainsTransitive(h: string, m: string, n: string)
    requires Contains(h, m) && Contains(m, n)
    ensures Contains(h, n)
    decreases |h|
  {
    if StartsWith(h, m) {
      PrefixContains(h, m, n);
    } else {
      ContainsTransitive(h[1..], m, n);
    }
  }

  /** Lower-casing both sides keeps an occurrence. */
  lemma {:induction false} LowerContains(h: string, n: string)
    requires Contains(h, n)
    ensures Contains(Lower(h), Lower(n))
    decreases |h|
  {
    if StartsWith(h, n) {
      assert Lower(h)[..|n|] == Lower(n);
    } else {
      assert Lower(h)[1..] == Lower(h[1..]);
      LowerContains(h[1..], n);
    }
  }

  // ---------------------------------------------------------------------------
  // Decimal numbers
  // ---------------------------------------------------------------------------

  function DigitChar(d: nat): (c: char)
    requires d < 10
    ensures IsDigit(c)
  {
    ('0' as int + d) as char
  }

  function DigitValue(c: char): (d: nat)
    requires IsDigit(c)
    ensures d < 10 && DigitChar(d) == c
  {
    c as int - '0' as int
  }

  /** `n.toString()` for a non-negative integer: no sign, no leading zero. */
  function NatToString(n: nat): (r: string)
    ensures |r| >= 1 && AllDigits(r)
    ensures |r| == 1 <==> n < 10
    ensures r[0] != '0' || n == 0
  {
    if n < 10 then [DigitChar(n)] else NatToString(n / 10) + [DigitChar(n % 10)]
  }

  /** The value of a string of decimal digits (`Number(s)` on such a string;
      leading zeros are allowed, as in `Number("09")`). */
  function ParseDigits(s: string): (n: nat)
    requires AllDigits(s)
  {
    if s == [] then 0 else ParseDigits(s[..|s| - 1]) * 10 + DigitValue(s[|s| - 1])
  }

  /** Printing then reading a number gives the number back. */
  lemma {:induction false} ParseNatToString(n: nat)
    ensures ParseDigits(NatToString(n)) == n
  {
    var s := NatToString(n);
    if n >= 10 {
      assert s[..|s| - 1] == NatToString(n / 10);
      ParseNatToString(n / 10);
    }
  }

  /** `m.toString().padStart(2, "0")`. */
  function Pad2(m: nat): (r: string)
    ensures AllDigits(r)
    ensures m < 100 ==> |r| == 2
    ensures m >= 10 ==> r == NatToString(m)
  {
    if m < 10 then "0" + NatToString(m) else NatToString(m)
  }

  lemma ParsePad2(m: nat)
    ensures ParseDigits(Pad2(m)) == m
  {
    ParseNatToString(m);
    if m < 10 {
      var s := Pad2(m);
      assert s[..|s| - 1] == "0";
      assert ParseDigits("0") == 0 by {
        assert "0"[..0] == [];
      }
    }
  }

  // ---------------------------------------------------------------------------
  // Length
  // ---------------------------------------------------------------------------

  /** `s.length`: UTF-16 code units, so a character outside the Basic
      Multilingual Plane counts twice. */
  function Utf16Length(s: string): (n: nat)
    ensures |s| <= n <= 2 * |s|
    ensures (forall i :: 0 <= i < |s| ==> (s[i] as int) < 0x1_0000) ==> n == |s|
    ensures |s| == 1 ==> n == (if (s[0] as int) < 0x1_0000 then 1 else 2)
  {
    if s == [] then 0 else (if (s[0] as int) < 0x1_0000 then 1 else 2) + Utf16Length(s[1..])
  }

  /** The unit count is additive, so with the one-character case every
      character outside the Basic Multilingual Plane counts exactly two. */
  lemma {:induction false} Utf16LengthAppend(a: string, b: string)
    ensures Utf16Length(a + b) == Utf16Length(a) + Utf16Length(b)
  {
    if a != [] {
      var ab := a + b;
      assert ab[0] == a[0];
      assert ab[1..] == a[1..] + b;
      Utf16LengthAppend(a[1..], b);
    } else {
      assert a + b == b;
    }
  }
}
